=== FILE: README.md ===
# Foodgram backend core, modelled in Dafny

Foodgram is a recipe-sharing service. Users publish recipes built from
ingredients and tagged with tags. They mark recipes as favourites, put them in
a shopping cart, and subscribe to other authors. This project models the core
of its Django/REST-framework backend as immutable values and pure functions,
and proves properties of that model:

- **the relational store**: `tables.dfy` and `schema.dfy`. There is one table
  per model. A table's rows are in ascending-id order and carry the table's
  auto-increment counter. The store also carries the rules the models
  declare through field options, field validators and `Follow.save`: foreign
  keys resolve, e-mails, usernames and slugs are unique, cooking times and
  amounts are at least 1, and nobody follows themself. Of these the database
  itself enforces the keys and the unique indexes, and only "at least 0" for
  the two numbers.
- **the models' behaviour**: `recipe_models.dfy` and `user_models.dfy`. This
  covers the string forms, the `-id` and `email` orderings, the unique
  indexes, the self-follow guard of `Follow.save`, and the `on_delete=CASCADE`
  effects of deleting a recipe, ingredient, tag or user.
- **the serializers**: `serializers.dfy`. Recipe validation and
  `RecipeCreateSerializer.create` are modelled together with its
  recipe-ingredient rows. So are the viewer-relative flags `is_favorited`,
  `is_in_shopping_cart` and `is_subscribed`.
- **the views that change state**: `views.dfy`. These are the shopping-cart
  add and remove and the unsubscribe. Each is a transition
  `(Store) -> (Reply, Store)`, where the reply carries the HTTP status.
- **the filters**: `filters.dfy`. `RecipeFilter` covers favourited, in cart,
  and tag slugs (any-of). `IngredientFilter` is a name prefix.
- **the permission classes**: `permissions.dfy`.

Every state-changing operation has a partner lemma. It is either an invariant
the operation preserves (`...PreservesValid`) or an inverse (`CartRoundTrip`,
`FollowRoundTrip`). Every validating or filtering operation states both
directions of its acceptance or membership condition.

The request's user is a parameter: a `Viewer`, either anonymous or a
signed-in user row with its staff and superuser flags. The store is a
parameter too. Nothing performs I/O.

## Model

| member | source | states |
|---|---|---|
| Views.AddToCart | backend/api/views.py:130-145 | The cart add with a serializer over the `user` and `recipe` keys the view supplies. An unknown recipe gives 404 with the store unchanged. An existing (user, recipe) cart row, or a user key naming no user, gives 400 with the store unchanged. Otherwise exactly one row is appended, nothing else changes, the reply is 201, and the pair now occurs exactly once. The status is 201 exactly in that case |
| Views.AddToCartAsWritten | backend/api/views.py:130-145 | As written the cart add never stores anything and never answers 201: an unknown recipe gives 404 and every other request gives 400, because the serializer cannot validate the data the view passes |
| Views.CartAddRefusedAsWritten | backend/api/serializers.py:226-235 | For an existing user and recipe not yet in the cart, the corrected add answers 201 while the add as written answers 400 and leaves the store alone |
| Views.RemoveFromCart | backend/api/views.py:147-155 | An unknown recipe gives 404 and an absent pair gives 400. Otherwise every (user, recipe) cart row and no other row is deleted, the pair is gone afterwards, and the reply is 204; the status is 204 exactly when the recipe exists and the pair is in the cart |
| Views.Unfollow | backend/api/views.py:102-106 | An unknown author or a missing follow row gives 404. Two or more matching rows raise MultipleObjectsReturned and delete nothing. Exactly one row is deleted, and nothing else, when it is the only match; the view then returns no response |
| Views.UnfollowAnswers500 | backend/api/views.py:102-106 | The client sees status 500 exactly when the author exists and the viewer follows them: a lone row leaves the view without a response, and several rows raise |
| Views.CartRoundTrip | backend/api/views.py:130-155 | For an existing user, adding a recipe not yet in the cart and then removing it gives 201 then 204, and restores the store except for the consumed id |
| Views.AddToCartTwiceRefused | backend/api/views.py:136-145 | A second add of the same recipe by the same user is refused with 400 and changes nothing |
| Views.AddToCartPreservesValid | backend/api/views.py:130-145 | Every outcome of the cart add keeps every integrity rule of the store |
| Views.RemoveFromCartPreservesValid | backend/api/views.py:147-155 | Every outcome of the cart removal keeps every integrity rule of the store |
| Views.UnfollowPreservesValid | backend/api/views.py:102-106 | Unsubscribing keeps every integrity rule of the store |
| Views.FollowRoundTrip | backend/api/views.py:102-106 | Saving a new follow and then unsubscribing restores the follow rows, and the unsubscribe deletes exactly one row |
| UserModels.SaveFollow | backend/users/models.py:51-54 | Following oneself raises a validation error and writes nothing. A missing user raises an integrity error. Otherwise the row is appended, nothing else changes, and the user now follows the author |
| UserModels.SaveFollowPreservesValid | backend/users/models.py:51-54 | A successful save keeps every integrity rule, including "nobody follows themself" |
| UserModels.SaveFollowTwiceKeepsDuplicate | backend/users/models.py:33-54 | There is no uniqueness on (user, author): saving the same follow twice leaves two matching rows |
| UserModels.AddUser | backend/users/models.py:6-12 | The unique index on `email`, and the one on `username` that `AbstractUser` declares, refuse a user whose e-mail or username is taken, and only then. Otherwise the user row is appended |
| UserModels.AddUserPreservesValid | backend/users/models.py:6-12 | An accepted user keeps e-mails and usernames unique and the store valid |
| UserModels.UsersByEmail | backend/users/models.py:24-25 | The user listing is sorted by e-mail and is a permutation of the stored rows |
| UserModels.EmailOrderStrict | backend/users/models.py:8-25 | With unique e-mails, of two different users exactly one sorts before the other, so the e-mail listing never ties |
| UserModels.InsertByEmail | backend/users/models.py:24-25 | Inserting into an e-mail-sorted listing keeps it sorted and adds exactly that row |
| UserModels.DeleteUser | backend/users/models.py:35-46 | Deleting a user removes exactly these rows: that user, their follows in either direction, their recipes, their favourite and cart rows, and the recipe-ingredient, favourite and cart rows of their recipes. Tags and ingredients are untouched |
| UserModels.DeleteUserPreservesValid | backend/recipes/models.py:55-60 | After the cascade the store is valid, the user is gone, and no follow row names them |
| RecipeModels.TagLabel | backend/recipes/models.py:26-27 | A tag's string form is the prefix of its slug of length 15, or the whole slug when it is shorter |
| RecipeModels.IngredientLabel | backend/recipes/models.py:45-46 | An ingredient's string form is its name, then ", ", then its unit, and nothing else |
| RecipeModels.IngredientLabelRoundTrip | backend/recipes/models.py:45-46 | The name and unit can be read back from "name, unit" when the name has no comma |
| RecipeModels.IntString | backend/recipes/models.py:105-106 | The amount in a recipe-ingredient's string form is its decimal notation, with a minus sign when negative, and it reads back to the amount |
| RecipeModels.FieldValidators | backend/recipes/models.py:96-99 | A field's validators argument yields its list, and a lone validator object, which `list()` cannot iterate, raises TypeError |
| RecipeModels.RecipeIngredientLabel | backend/recipes/models.py:105-106 | A recipe-ingredient's string form starts with the ingredient's string form and " * ", and for a non-negative amount the rest is the amount's decimal notation and reads back to it |
| RecipeModels.PickLabel | backend/recipes/models.py:129-130 | The favourite's and cart entry's string form is the user's name, then " добавил рецепт ", then the recipe's name |
| RecipeModels.PickLabelDeterminesParts | backend/recipes/models.py:129-130 | Two such captions with usernames of one length are equal only when the usernames and the recipe names are equal |
| RecipeModels.AddTag | backend/recipes/models.py:16-20 | The unique index on `slug` refuses a tag whose slug is taken, and only then. Otherwise the tag row is appended |
| RecipeModels.AddTagPreservesValid | backend/recipes/models.py:16-20 | An accepted tag keeps slugs unique and the store valid |
| RecipeModels.DeleteRecipe | backend/recipes/models.py:85-88 | Deleting a recipe removes exactly it and the recipe-ingredient, favourite and cart rows pointing at it. Users, follows, tags and ingredients are untouched |
| RecipeModels.DeleteRecipePreservesValid | backend/recipes/models.py:117-122 | After the cascade the store is valid and the recipe no longer exists |
| RecipeModels.DeleteIngredient | backend/recipes/models.py:90-95 | Deleting an ingredient removes exactly it and the recipe-ingredient rows naming it |
| RecipeModels.DeleteIngredientPreservesValid | backend/recipes/models.py:90-95 | After that cascade the store is valid |
| RecipeModels.DeleteTag | backend/recipes/models.py:51-54 | Deleting a tag removes exactly it, and every recipe loses that tag id and keeps every other field and tag |
| RecipeModels.DeleteTagPreservesValid | backend/recipes/models.py:51-54 | After deleting a tag the store is valid and no recipe refers to the tag |
| Tables.NewestFirst | backend/recipes/models.py:74-75 | The `-id` listing holds the stored rows reversed, so an ascending table lists newest first |
| RecipeModels.ListingsNewestFirst | backend/recipes/models.py:74-75 | In a valid store the recipe, favourite and cart listings are strictly newest first and list every stored row |
| Tables.Where | backend/api/filters.py:21-29 | A queryset filter keeps exactly the rows that match and never more rows than it was given; on an id-sorted input (ascending or descending) it keeps that order |
| Tables.Delete | backend/api/views.py:151-153 | A queryset delete removes exactly the matching rows and leaves the id counter and the table's well-formedness alone |
| Tables.Insert | backend/api/views.py:141-142 | A save appends one row with the next id, and the new id is not in use |
| Tables.CountZero | backend/api/views.py:136-137 | `.exists()` is false exactly when the filter's count is zero |
| Serializers.Check | backend/recipes/models.py:61-72 | Validation with the model's validator accepts exactly the payloads whose tag and ingredient ids resolve, whose amounts are from 1 to 2147483647, whose name and text are not blank and hold no NUL character, whose trimmed name has at most 200 characters, and whose cooking time is at least 1. The validated data is the payload with name and text trimmed |
| Serializers.CheckAsWritten | backend/api/serializers.py:99 | Validation as written accepts a payload exactly when its ids resolve, its amounts are from 1 to 2147483647 and its name and text pass the same blank, NUL and length checks, whatever its cooking time. The validated data is the payload with name and text trimmed |
| Text.Strip | backend/recipes/models.py:61-69 | Trimming the `name` and `text` input gives a contiguous piece of it with only whitespace before and after it in the input, and no whitespace at either of its own ends. It is empty exactly when the input is all whitespace |
| Text.StripIdempotent | backend/recipes/models.py:61-69 | Trimming a trimmed string changes nothing |
| Serializers.Clean | backend/api/serializers.py:101-114 | The validated data has `name` and `text` replaced by their trimmed forms and keeps tags, ingredients, image and cooking time. Both trimmed fields are non-empty when the payload passes the blank checks |
| Serializers.CleanIdempotent | backend/api/serializers.py:101-114 | Cleaning validated data again changes nothing |
| Serializers.Create | backend/api/serializers.py:119-129 | The recipe is created with the given author, fields and tag set, and one recipe-ingredient row is saved per entry, in order, pointing at the new recipe. Earlier rows are kept. A negative cooking time hits the database check and raises |
| Serializers.AddLines | backend/api/serializers.py:123-128 | Each entry becomes the next row, with the next id, the recipe, the ingredient and the amount |
| Serializers.Submit | backend/api/serializers.py:90-129 | A submission fails with a validation error exactly when an id does not resolve, an amount is out of range, the name or text is blank or holds a NUL character, the trimmed name is too long, or the cooking time is below 1. On success the new recipe, with the trimmed name and text, is appended to the recipes, one recipe-ingredient row per entry follows the earlier rows in order, and no other table changes |
| Serializers.SubmitAsWritten | backend/api/serializers.py:99 | As written, a payload that passes the other checks is stored, recipe and recipe-ingredient rows as in `Submit`, with its cooking time when that is 0 or more, and a negative one raises an integrity error |
| Serializers.SubmitPreservesValid | backend/api/serializers.py:119-129 | A submission whose ids resolve, whose name and text pass validation and whose cooking time is at least 1 is accepted, keeps the store valid, and the new recipe exists |
| Serializers.ZeroCookingTimeStored | backend/api/serializers.py:99 | A payload with cooking time 0 passes validation as written, and the stored recipe breaks the model's "at least 1" rule |
| Serializers.IsFavorited | backend/api/serializers.py:131-136 | False for an anonymous viewer. Otherwise true exactly when a favourite row (viewer, recipe) exists |
| Serializers.IsInShoppingCart | backend/api/serializers.py:138-144 | False for an anonymous viewer. Otherwise true exactly when a cart row (viewer, recipe) exists |
| Serializers.IsSubscribed | backend/api/serializers.py:161-166 | False for an anonymous viewer. Otherwise true exactly when the viewer follows the author |
| Serializers.CartFlagFollowsCartViews | backend/api/serializers.py:138-144 | After a 201 from the corrected cart add the flag is true for that user; after a 204 from the cart removal it is false |
| Serializers.SubscribedFlagFollowsFollowRows | backend/api/serializers.py:161-166 | After a successful follow the flag is true; after a successful unsubscribe it is false |
| Filters.GetFavorite | backend/api/filters.py:21-24 | A false value returns the queryset unchanged, and an anonymous viewer with a true value raises. Otherwise it keeps exactly the recipes `is_favorited` is true for, once each and newest first when the input was |
| Filters.GetIsInShoppingCart | backend/api/filters.py:26-29 | A false value returns the queryset unchanged, and an anonymous viewer with a true value raises. Otherwise it keeps exactly the recipes `is_in_shopping_cart` is true for, once each and newest first when the input was |
| Filters.FavoritedBy | backend/api/filters.py:23 | Keeps each favourited recipe once, and keeps newest-first order |
| Filters.InCartOf | backend/api/filters.py:28 | Keeps each recipe in the user's cart once, and keeps newest-first order |
| Filters.JoinCopies | backend/api/filters.py:23 | The join lists exactly the recipes that have a matching related row |
| Filters.JoinCopiesCounts | backend/api/filters.py:23 | The join holds each recipe as many times as the input does, times its number of matching related rows |
| Filters.FavoritesJoin | backend/api/filters.py:23 | The favourites join as written lists exactly the recipes the user has a favourite row for, each once per such row |
| Filters.CartJoin | backend/api/filters.py:28 | The cart join as written lists exactly the recipes the user has a cart row for, each once per such row |
| Filters.DuplicateFavoriteListsRecipeTwice | backend/api/filters.py:23 | Two favourite rows of one user for one recipe make the join list that recipe twice |
| Filters.DuplicateCartEntryListsRecipeTwice | backend/api/filters.py:28 | Two cart rows of one user for one recipe make the join list that recipe twice |
| Filters.JoinIsDistinctWithoutDuplicates | backend/api/filters.py:23 | With at most one favourite row per recipe, the join equals the distinct restriction |
| Filters.ByTags | backend/api/filters.py:8-11 | No slugs leaves the queryset unchanged, and a slug that names no tag is a validation error. Otherwise it keeps exactly the recipes with at least one tag among the slugs, and on a newest-first input it keeps them once each and in order |
| Filters.FilterRecipes | backend/api/filters.py:5-29 | Fails exactly when a tag slug names no tag (a validation error) or an anonymous viewer asks for favourites or cart entries (a type error). Otherwise the listing holds exactly the input recipes that meet every requested condition, in the input's order |
| Filters.NameStartsWith | backend/api/filters.py:34 | A query holding a NUL character is a validation error. Otherwise a blank query keeps every ingredient, and any other query keeps exactly the ingredients whose name starts with the trimmed query, case-sensitively |
| Permissions.AuthorStaffOrReadOnly | backend/api/permissions.py:7-12 | GET is always allowed. Otherwise the author or a staff user is allowed and no one else, so HEAD and OPTIONS are not treated as reading |
| Permissions.AdminOrReadOnlyAsWritten | backend/api/permissions.py:16-21 | GET is allowed and an anonymous non-GET is refused. A signed-in non-GET raises AttributeError |
| Permissions.AdminOrReadOnly | backend/api/permissions.py:16-21 | GET is allowed. Any other method is allowed exactly for a signed-in superuser |
| Permissions.AdminOrReadOnlyAgreesWhereDefined | backend/api/permissions.py:16-21 | Wherever the permission as written returns an answer, it is the corrected one |
| Permissions.IsAuthorHasPermission | backend/api/permissions.py:25-26 | A signed-in user is allowed. An anonymous user is allowed exactly for safe methods |
| Permissions.IsAuthorHasObjectPermission | backend/api/permissions.py:28-29 | Allowed exactly for a safe method or the object's author. Whatever it admits also passes the view-level check |
| Permissions.ObjectPermissionsDiffer | backend/api/permissions.py:7-12 | The two object permissions disagree exactly for HEAD or OPTIONS by someone neither author nor staff, and for an unsafe method by staff who is not the author |
| Text.DecimalRoundTrip | backend/recipes/models.py:105-106 | An integer's decimal rendering reads back to the integer |
| Text.LexTransitive | backend/users/models.py:24-25 | The order the e-mail listing sorts by is transitive |

## Left out

- There is no shopping-list download, no ingredient aggregation across the cart's recipes, and no recipe update with ingredient replacement in this code, so none is modelled.
- `FollowViewSet.post` and `FollowSerializer` are left out. The serializer lists fields the `Follow` model does not have and is posted an `author` key it does not declare, so what it saves depends on framework internals. `UserModels.SaveFollow` models what a subscription writes.
- `RecipeViewSet.dispatch` is left out. It calls `super().dispatch(self, request, ...)`, so the view itself arrives where the request is expected. The request wrapper refuses anything but an `HttpRequest`, so as written every request to the recipe endpoints fails before permissions, `RecipeFilter` or any serializer runs. The model does not include that failure. `Filters.FilterRecipes`, `Serializers.Submit` and the Findings rows for backend/api/serializers.py:99 and backend/api/filters.py:23 and 28 model those classes on their own, as they would behave if the view reached them.
- `RecipeViewSet.get_serializer_class` is modelled only indirectly. It picks the create serializer for GET and the plain one for writes, and the view never passes the author to `save`. `Serializers.Create` therefore takes the author as a parameter and models what the create serializer does when it is used.
- `RecipeSerializer` names `get_is_favorited` and `get_is_in_shopping_cart` but does not define them. The flags are modelled from `RecipeCreateSerializer`.
- Views.AddToCart: the corrected add validates the `user` key as an existing user and the recipe through the view's lookup. The serializer's response body is not modelled.
- Serializers.Create, Serializers.Check, Serializers.CheckAsWritten, Serializers.Submit, Serializers.SubmitAsWritten: `Base64ImageField` decoding, file storage, and the response body are left out. The image is an opaque string, and a missing or undecodable image is not modelled as an error, so the acceptance conditions of these members omit the image check.
- `RecipeIngredient.amount` passes one validator object where a list is expected, so as written the models module cannot be imported (see Findings). Apart from `RecipeModels.FieldValidators`, the model treats it as the evidently intended "amount is at least 1" rule.
- Integer widths: `PositiveIntegerField` holds at most 2147483647. `Serializers.Resolves` bounds each amount by it. The cooking time has no upper bound in the model, so a value above that limit, which the database would refuse, is accepted here.
- Whitespace: `Text.IsSpace` is the set of characters Python's `str.isspace` accepts, and the trimming the `name` and `text` fields apply uses it.
- Field length limits (`max_length`) other than the recipe name's 200 characters, e-mail syntax, the slug alphabet and colour format are not modelled.
- The `author` filter of `RecipeFilter` is left out. It is a bare `CharFilter` with no lookup besides equality on the author key.
- `IngredientViewSet` declares `filterset_class` without `filter_backends`. Whether the filter applies depends on project settings, which are not part of this model. `Filters.NameStartsWith` models the filter itself.
- `User.__str__` and `Recipe.__str__` return one field unchanged (`UserModels.UserLabel`, `RecipeModels.RecipeLabel`), and `Follow.__str__` only joins two such labels (`UserModels.FollowLabel`). They carry no contract beyond their definitions.
- Pagination (`LimitPageNumberPagination`), routing (`urls.py`, which imports names the views module does not define), djoser's user endpoints, the admin site and token authentication are left out.
- `TagViewSet` and `FavoriteViewSet` are full model view sets: besides listing they create, update and delete through `TagSerializer` and `FavoriteSerializer`. Those generic endpoints are left out. Their listings are covered by the listing orders, and the table-level effects of adding and deleting rows by `RecipeModels.AddTag`, `RecipeModels.DeleteTag` and the cascade lemmas. `FollowersViewSet.get` is a plain queryset and is left out.
- The database collation is modelled as plain character-code order (`Text.LexLeq`), with no locale rules.
- Filters.NameStartsWith: `startswith` is modelled as a case-sensitive prefix test, as on PostgreSQL. On SQLite the underlying `LIKE` ignores ASCII case; that backend is not modelled.
- Transactions and concurrency are left out: every operation is one atomic step on the store.
- `FollowersSerializer` and `FavoriteSerializer` declare fields without methods or with `source` paths only. They are output formatting and are left out.

## Notable behaviour

- A repeated cart add answers 400 (backend/api/views.py:136-145), while a second follow is stored as a duplicate row (`UserModels.SaveFollowTwiceKeepsDuplicate`).
- The `is_favorited` and `is_in_shopping_cart` serializer flags are false for an anonymous viewer, but the filters of the same names raise for an anonymous viewer with a true value, because the anonymous user is not a user id (backend/api/filters.py:23, 28).
- Removing an absent cart relation answers 400 (backend/api/views.py:155), and an unsubscribe that succeeds returns no response at all (backend/api/views.py:102-106).

## Findings

| source | as written | input that shows it | evidently intended | confidence | as-written member | corrected member |
|---|---|---|---|---|---|---|
| backend/api/serializers.py:99 | `cooking_time` is redeclared as a plain integer field. This drops the model's `MinValueValidator(1)`, so 0 passes validation and is stored | a recipe payload with `cooking_time = 0` | cooking time is at least 1 (backend/recipes/models.py:70-72) | high, not executed | Serializers.ZeroCookingTimeStored | Serializers.Submit |
| backend/api/permissions.py:20 | reads `request.user.is_admin`, which the user model does not define | an authenticated user sending POST | only administrators may write | high, not executed | Permissions.AdminOrReadOnlyAsWritten | Permissions.AdminOrReadOnly |
| backend/api/filters.py:23 | filtering across the favourites relation without `distinct()` lists a recipe once per matching favourite row, and favourites are not unique | two favourite rows of one user for one recipe, with `is_favorited=1` and no `tags` value (that filter applies `distinct()`) | each recipe listed once | medium, not executed | Filters.DuplicateFavoriteListsRecipeTwice | Filters.GetFavorite |
| backend/api/filters.py:28 | the cart filter joins across cart rows without `distinct()` in the same way, and cart rows are not unique | two cart rows of one user for one recipe, with `is_in_shopping_cart=1` and no `tags` value | each recipe listed once | medium, not executed | Filters.DuplicateCartEntryListsRecipeTwice | Filters.GetIsInShoppingCart |
| backend/api/serializers.py:226-235 | the view builds the serializer from `user` and `recipe` only, but `ShoppingCartSerializer` declares the writable, required fields `id`, `name`, `image` and `cooking_time` and no `user` or `recipe`, so `is_valid()` fails and the view answers 400 | POST to the cart for an existing recipe that is not yet in the user's cart | 201 and one new cart row | high, not executed | Views.AddToCartAsWritten | Views.AddToCart |
| backend/recipes/models.py:97 | `validators=MinValueValidator(1, ...)` passes a lone validator; Django's field constructor calls `list()` on it, which raises TypeError when the models module is imported | importing the recipes models | `validators=[MinValueValidator(1, ...)]`, amounts at least 1 | high, not executed | RecipeModels.AmountFieldRaisesAsWritten | RecipeModels.AmountFieldAdmitsPositive |

=== FILE: filters.dfy ===
/**
 * The list filters: `RecipeFilter` (favourited by the viewer, in the
 * viewer's cart, tag slugs any-of) and `IngredientFilter` (name prefix).
 * Each restricts a collection that is already in listing order.
 */
module Filters {
  import opened Wrappers
  import opened Tables
  import opened Text
  import opened Schema
  import Serializers

  // ---- favourites and cart: the join as written

  /** `x` repeated `n` times. */
  function Repeat<T>(x: T, n: nat): (xs: seq<T>)
    ensures |xs| == n
    ensures forall i :: 0 <= i < n ==> xs[i] == x
  {
    seq(n, _ => x)
  }

  /** `x` repeated `n` times holds `n` copies of `x` and nothing else. */
  lemma {:induction false} RepeatCounts<T>(x: T, n: nat)
    ensures forall y :: multiset(Repeat(x, n))[y] == if y == x then n else 0
  {
    if n > 0 {
      RepeatCounts(x, n - 1);
      assert Repeat(x, n) == Repeat(x, n - 1) + [x];
    }
  }

  /**
   * A filter across a multi-valued relation without `distinct()`: the SQL
   * join yields a recipe once per related row that matches.
   */
  function JoinCopies(recipes: seq<Row<Recipe>>, copies: Row<Recipe> -> nat): (joined: seq<Row<Recipe>>)
    ensures forall r :: r in joined ==> r in recipes && copies(r) > 0
    ensures forall r :: r in recipes && copies(r) > 0 ==> r in joined
  {
    if |recipes| == 0 then []
    else
      var here := Repeat(recipes[0], copies(recipes[0]));
      var rest := JoinCopies(recipes[1..], copies);
      assert forall r :: r in here ==> r == recipes[0];
      assert copies(recipes[0]) > 0 ==> here[0] == recipes[0];
      here + rest
  }

  /** The join holds each recipe as often as the input does, times its number of matching rows. */
  lemma {:induction false} JoinCopiesCounts(recipes: seq<Row<Recipe>>, copies: Row<Recipe> -> nat)
    ensures forall r :: multiset(JoinCopies(recipes, copies))[r] == multiset(recipes)[r] * copies(r)
  {
    if |recipes| > 0 {
      var h := recipes[0];
      JoinCopiesCounts(recipes[1..], copies);
      assert recipes == [h] + recipes[1..];
      assert JoinCopies(recipes, copies) == Repeat(h, copies(h)) + JoinCopies(recipes[1..], copies);
      JoinStepCounts(h, recipes[1..], copies, JoinCopies(recipes[1..], copies));
    }
  }

  /** One more recipe in front adds its copies to the join's counts. */
  lemma JoinStepCounts(h: Row<Recipe>, tail: seq<Row<Recipe>>, copies: Row<Recipe> -> nat, rest: seq<Row<Recipe>>)
    requires forall r :: multiset(rest)[r] == multiset(tail)[r] * copies(r)
    ensures forall r :: multiset(Repeat(h, copies(h)) + rest)[r] == multiset([h] + tail)[r] * copies(r)
  {
    forall r
      ensures multiset(Repeat(h, copies(h)) + rest)[r] == multiset([h] + tail)[r] * copies(r)
    {
      JoinStepCount(h, tail, copies(h), multiset(rest)[r], r, copies(r));
    }
  }

  /** `JoinStepCounts` for one recipe `r`, with the copy counts as plain numbers. */
  lemma JoinStepCount(h: Row<Recipe>, tail: seq<Row<Recipe>>, n: nat, later: nat, r: Row<Recipe>, c: nat)
    requires later == multiset(tail)[r] * c
    requires r == h ==> c == n
    ensures multiset(Repeat(h, n))[r] + later == multiset([h] + tail)[r] * c
  {
    RepeatCounts(h, n);
    var m := multiset(tail)[r];
    if r == h {
      assert multiset([h] + tail)[r] == 1 + m;
      assert (1 + m) * c == c + m * c;
    } else {
      assert multiset([h] + tail)[r] == m;
    }
  }

  /** `queryset.filter(favorites__user=user)` as written: one copy of a recipe per matching favourite row. */
  function FavoritesJoin(s: Store, recipes: seq<Row<Recipe>>, user: nat): (joined: seq<Row<Recipe>>)
    ensures forall r :: r in joined <==> r in recipes && HasFavorite(s, user, r.id)
    ensures forall r :: multiset(joined)[r] == multiset(recipes)[r] * Count(s.favorites.rows, FavoriteOf(user, r.id))
  {
    var copies := (r: Row<Recipe>) => Count(s.favorites.rows, FavoriteOf(user, r.id));
    forall r: Row<Recipe> | r in recipes
      ensures copies(r) > 0 <==> HasFavorite(s, user, r.id)
    {
      CountZero(s.favorites.rows, FavoriteOf(user, r.id));
    }
    JoinCopiesCounts(recipes, copies);
    JoinCopies(recipes, copies)
  }

  /** `queryset.filter(shopping_cart__user=user)` as written: one copy of a recipe per matching cart row. */
  function CartJoin(s: Store, recipes: seq<Row<Recipe>>, user: nat): (joined: seq<Row<Recipe>>)
    ensures forall r :: r in joined <==> r in recipes && InCart(s, user, r.id)
    ensures forall r :: multiset(joined)[r] == multiset(recipes)[r] * Count(s.carts.rows, CartEntryOf(user, r.id))
  {
    var copies := (r: Row<Recipe>) => Count(s.carts.rows, CartEntryOf(user, r.id));
    forall r: Row<Recipe> | r in recipes
      ensures copies(r) > 0 <==> InCart(s, user, r.id)
    {
      CountZero(s.carts.rows, CartEntryOf(user, r.id));
    }
    JoinCopiesCounts(recipes, copies);
    JoinCopies(recipes, copies)
  }

  /** Two favourite rows of the same user for one recipe list that recipe twice. */
  lemma DuplicateFavoriteListsRecipeTwice(s: Store, r: Row<Recipe>, user: nat)
    requires Count(s.favorites.rows, FavoriteOf(user, r.id)) == 2
    ensures FavoritesJoin(s, [r], user) == [r, r]
  {
    var copies := (x: Row<Recipe>) => Count(s.favorites.rows, FavoriteOf(user, x.id));
    assert copies(r) == 2;
    assert [r][1..] == [];
    assert Repeat(r, 2) == [r, r];
    assert JoinCopies([r], copies) == Repeat(r, 2) + JoinCopies([], copies);
  }

  /** Two cart rows of the same user for one recipe list that recipe twice. */
  lemma DuplicateCartEntryListsRecipeTwice(s: Store, r: Row<Recipe>, user: nat)
    requires Count(s.carts.rows, CartEntryOf(user, r.id)) == 2
    ensures CartJoin(s, [r], user) == [r, r]
  {
    var copies := (x: Row<Recipe>) => Count(s.carts.rows, CartEntryOf(user, x.id));
    assert copies(r) == 2;
    assert [r][1..] == [];
    assert Repeat(r, 2) == [r, r];
    assert JoinCopies([r], copies) == Repeat(r, 2) + JoinCopies([], copies);
  }

  // ---- favourites and cart: each recipe once

  /** The recipes among `recipes` the user has a favourite row for, each once, in the input's order. */
  function FavoritedBy(s: Store, recipes: seq<Row<Recipe>>, user: nat): (kept: seq<Row<Recipe>>)
    ensures forall r :: r in kept ==> r in recipes && HasFavorite(s, user, r.id)
    ensures forall r :: r in recipes && HasFavorite(s, user, r.id) ==> r in kept
    ensures |kept| <= |recipes|
    ensures Descending(recipes) ==> Descending(kept)
  {
    Where(recipes, (r: Row<Recipe>) => HasFavorite(s, user, r.id))
  }

  /** The recipes among `recipes` the user has a cart row for, each once, in the input's order. */
  function InCartOf(s: Store, recipes: seq<Row<Recipe>>, user: nat): (kept: seq<Row<Recipe>>)
    ensures forall r :: r in kept ==> r in recipes && InCart(s, user, r.id)
    ensures forall r :: r in recipes && InCart(s, user, r.id) ==> r in kept
    ensures |kept| <= |recipes|
    ensures Descending(recipes) ==> Descending(kept)
  {
    Where(recipes, (r: Row<Recipe>) => InCart(s, user, r.id))
  }

  /** Where the user has at most one favourite row per recipe, the join is already the distinct restriction. */
  lemma JoinIsDistinctWithoutDuplicates(s: Store, recipes: seq<Row<Recipe>>, user: nat)
    requires forall r :: r in recipes ==> Count(s.favorites.rows, FavoriteOf(user, r.id)) <= 1
    ensures FavoritesJoin(s, recipes, user) == FavoritedBy(s, recipes, user)
  {
    var copies := (r: Row<Recipe>) => Count(s.favorites.rows, FavoriteOf(user, r.id));
    var keep := (r: Row<Recipe>) => HasFavorite(s, user, r.id);
    forall r | r in recipes
      ensures copies(r) == 1 <==> keep(r)
    {
      CountZero(s.favorites.rows, FavoriteOf(user, r.id));
    }
    JoinIsWhere(recipes, copies, keep);
  }

  lemma {:induction false} JoinIsWhere(recipes: seq<Row<Recipe>>, copies: Row<Recipe> -> nat, keep: Row<Recipe> -> bool)
    requires forall r :: r in recipes ==> copies(r) <= 1 && (copies(r) == 1 <==> keep(r))
    ensures JoinCopies(recipes, copies) == Where(recipes, keep)
  {
    if |recipes| > 0 {
      var first := recipes[0];
      assert first in recipes;
      assert forall r :: r in recipes[1..] ==> r in recipes;
      JoinIsWhere(recipes[1..], copies, keep);
      if keep(first) {
        assert Repeat(first, copies(first)) == [first];
      } else {
        assert Repeat(first, copies(first)) == [];
      }
    }
  }

  /**
   * `RecipeFilter.get_favorite` with each recipe listed once: a false (or
   * absent) value leaves the queryset as it is; a true value keeps the
   * viewer's favourites, in order and without copies. The anonymous user is
   * not a user id, so the lookup raises.
   */
  function GetFavorite(s: Store, recipes: seq<Row<Recipe>>, viewer: Viewer, value: bool)
    : (out: Result<seq<Row<Recipe>>, Error>)
    ensures !value ==> out == Success(recipes)
    ensures value && viewer.Anonymous? ==> out == Failure(TypeError)
    ensures value && viewer.Member? ==>
      && out.Success?
      && (forall r :: r in out.value <==> r in recipes && Serializers.IsFavorited(s, viewer, r.id))
      && (Descending(recipes) ==> Descending(out.value))
  {
    if !value then Success(recipes)
    else if viewer.Anonymous? then Failure(TypeError)
    else Success(FavoritedBy(s, recipes, viewer.id))
  }

  /** `RecipeFilter.get_is_in_shopping_cart` with each recipe listed once, the same shape over cart rows. */
  function GetIsInShoppingCart(s: Store, recipes: seq<Row<Recipe>>, viewer: Viewer, value: bool)
    : (out: Result<seq<Row<Recipe>>, Error>)
    ensures !value ==> out == Success(recipes)
    ensures value && viewer.Anonymous? ==> out == Failure(TypeError)
    ensures value && viewer.Member? ==>
      && out.Success?
      && (forall r :: r in out.value <==> r in recipes && Serializers.IsInShoppingCart(s, viewer, r.id))
      && (Descending(recipes) ==> Descending(out.value))
  {
    if !value then Success(recipes)
    else if viewer.Anonymous? then Failure(TypeError)
    else Success(InCartOf(s, recipes, viewer.id))
  }

  // ---- tags

  /** Does the recipe carry a tag whose slug is one of `slugs`? */
  predicate HasTagIn(s: Store, r: Row<Recipe>, slugs: seq<string>) {
    exists t :: t in s.tags.rows && t.id in r.val.tags && t.val.slug in slugs
  }

  /** Does every requested slug name a tag? */
  predicate SlugsKnown(s: Store, slugs: seq<string>) {
    forall slug :: slug in slugs ==> exists t :: t in s.tags.rows && t.val.slug == slug
  }

  /**
   * The `tags` filter on `tags__slug`: no slugs leaves the queryset as it
   * is; a slug naming no tag is rejected by the filter's form; otherwise a
   * recipe stays when at least one of its tags has a requested slug
   * (any-of), once.
   */
  function ByTags(s: Store, recipes: seq<Row<Recipe>>, slugs: seq<string>): (out: Result<seq<Row<Recipe>>, Error>)
    ensures |slugs| == 0 ==> out == Success(recipes)
    ensures |slugs| > 0 && !SlugsKnown(s, slugs) ==> out == Failure(ValidationError)
    ensures |slugs| > 0 && SlugsKnown(s, slugs) ==>
      && out.Success?
      && (forall r :: r in out.value ==> r in recipes && HasTagIn(s, r, slugs))
      && (forall r :: r in recipes && HasTagIn(s, r, slugs) ==> r in out.value)
      && (Descending(recipes) ==> Descending(out.value))
  {
    if |slugs| == 0 then Success(recipes)
    else if !SlugsKnown(s, slugs) then Failure(ValidationError)
    else Success(Where(recipes, (r: Row<Recipe>) => HasTagIn(s, r, slugs)))
  }

  // ---- the whole recipe filter

  /** The query parameters of `RecipeFilter`; an absent flag reads as false. */
  datatype Query = Query(tags: seq<string>, isFavorited: bool, isInShoppingCart: bool)

  /** Does the recipe meet every condition the query asks for? */
  predicate Selected(s: Store, r: Row<Recipe>, viewer: Viewer, q: Query) {
    && (|q.tags| > 0 ==> HasTagIn(s, r, q.tags))
    && (q.isFavorited ==> Serializers.IsFavorited(s, viewer, r.id))
    && (q.isInShoppingCart ==> Serializers.IsInShoppingCart(s, viewer, r.id))
  }

  /** `RecipeFilter` applies its filters one after another, in declaration order. */
  function FilterRecipes(s: Store, recipes: seq<Row<Recipe>>, viewer: Viewer, q: Query)
    : (out: Result<seq<Row<Recipe>>, Error>)
    ensures out.Success? ==> forall r :: r in out.value ==> r in recipes
    ensures out.Success? && |q.tags| > 0 ==> forall r :: r in out.value ==> HasTagIn(s, r, q.tags)
    ensures out.Success? && q.isFavorited ==> forall r :: r in out.value ==> Serializers.IsFavorited(s, viewer, r.id)
    ensures out.Success? && q.isInShoppingCart ==>
      forall r :: r in out.value ==> Serializers.IsInShoppingCart(s, viewer, r.id)
    ensures out.Success? && Descending(recipes) ==> Descending(out.value)
    ensures out.Success? ==> forall r :: r in recipes && Selected(s, r, viewer, q) ==> r in out.value
    ensures out.Failure? <==>
      || (|q.tags| > 0 && !SlugsKnown(s, q.tags))
      || (viewer.Anonymous? && (q.isFavorited || q.isInShoppingCart))
    ensures out.Failure? ==>
      out.error == if |q.tags| > 0 && !SlugsKnown(s, q.tags) then ValidationError else TypeError
  {
    var tagged :- ByTags(s, recipes, q.tags);
    var favorited :- GetFavorite(s, tagged, viewer, q.isFavorited);
    GetIsInShoppingCart(s, favorited, viewer, q.isInShoppingCart)
  }

  // ---- ingredients

  /**
   * `IngredientFilter`: `name__startswith` with the query as the filter's
   * form cleans it, surrounding whitespace trimmed. A query holding a NUL
   * character fails form validation. A blank query keeps everything;
   * otherwise the match is case-sensitive.
   */
  function NameStartsWith(rows: seq<Row<Ingredient>>, query: string): (out: Result<seq<Row<Ingredient>>, Error>)
    ensures out.Failure? <==> !NulFree(query)
    ensures out.Failure? ==> out.error == ValidationError
    ensures out.Success? && AllSpace(query) ==> out.value == rows
    ensures out.Success? && !AllSpace(query) ==>
      && (forall i :: i in out.value ==> i in rows && IsPrefix(Strip(query), i.val.name))
      && (forall i :: i in rows && IsPrefix(Strip(query), i.val.name) ==> i in out.value)
    ensures out.Success? ==> |out.value| <= |rows|
  {
    if !NulFree(query) then Failure(ValidationError)
    else
      var cleaned := Strip(query);
      var keep := (i: Row<Ingredient>) => IsPrefix(cleaned, i.val.name);
      if |cleaned| == 0 then Success(rows)
      else Success(Where(rows, keep))
  }
}

=== FILE: permissions.dfy ===
/**
 * The API's permission classes as predicates of the request method, the
 * requesting identity and, for object permissions, the object's author.
 */
module Permissions {
  import opened Wrappers
  import opened Schema

  datatype Method = GET | HEAD | OPTIONS | POST | PUT | PATCH | DELETE

  /** `SAFE_METHODS` */
  predicate IsSafe(m: Method) {
    m == GET || m == HEAD || m == OPTIONS
  }

  /** `request.user == obj.author`: rows compare by primary key, and the anonymous user equals no row. */
  predicate IsAuthor(v: Viewer, author: nat) {
    v.Member? && v.id == author
  }

  /** `request.user.is_staff`, which is false for the anonymous user. */
  predicate IsStaff(v: Viewer) {
    v.Member? && v.isStaff
  }

  /**
   * `AuthorStaffOrReadOnly.has_object_permission`: reading with GET, the
   * author, or staff. Only GET counts as reading here: HEAD and OPTIONS from
   * anyone else are refused.
   */
  function AuthorStaffOrReadOnly(m: Method, v: Viewer, author: nat): (ok: bool)
    ensures m == GET ==> ok
    ensures IsAuthor(v, author) || IsStaff(v) ==> ok
    ensures !IsAuthor(v, author) && !IsStaff(v) ==> (ok <==> m == GET)
  {
    m == GET || IsAuthor(v, author) || IsStaff(v)
  }

  /**
   * `AdminOrReadOnly.has_permission` as written. GET passes and the
   * anonymous user fails before the admin flag is read; for a signed-in
   * user the code reads `is_admin`, an attribute the user model does not
   * have, so the check raises.
   */
  function AdminOrReadOnlyAsWritten(m: Method, v: Viewer): (out: Result<bool, Error>)
    ensures out.Failure? <==> m != GET && v.Member?
    ensures out.Failure? ==> out.error == AttributeError
    ensures out.Success? ==> (out.value <==> m == GET)
  {
    if m == GET then Success(true)
    else if !v.Member? then Success(false)
    else Failure(AttributeError)
  }

  /**
   * `AdminOrReadOnly.has_permission` with the admin flag read from the
   * user's superuser status: GET, or (signed in and admin) — `and` binds
   * tighter than `or`.
   */
  function AdminOrReadOnly(m: Method, v: Viewer): (ok: bool)
    ensures m == GET ==> ok
    ensures m != GET ==> (ok <==> v.Member? && v.isSuperuser)
    ensures !v.Member? ==> (ok <==> m == GET)
  {
    m == GET || (v.Member? && v.isSuperuser)
  }

  /** The corrected check agrees with the code wherever the code does not raise. */
  lemma AdminOrReadOnlyAgreesWhereDefined(m: Method, v: Viewer)
    ensures AdminOrReadOnlyAsWritten(m, v).Success? ==> AdminOrReadOnlyAsWritten(m, v).value == AdminOrReadOnly(m, v)
  {
  }

  /** `IsAuthorPermissions.has_permission`: signed in, or a safe method. */
  function IsAuthorHasPermission(m: Method, v: Viewer): (ok: bool)
    ensures v.Anonymous? && !IsSafe(m) ==> !ok
    ensures v.Member? ==> ok
    ensures v.Anonymous? ==> (ok <==> IsSafe(m))
  {
    v.Member? || IsSafe(m)
  }

  /** `IsAuthorPermissions.has_object_permission`: the author, or a safe method. */
  function IsAuthorHasObjectPermission(m: Method, v: Viewer, author: nat): (ok: bool)
    ensures v.Anonymous? && !IsSafe(m) ==> !ok
    ensures ok ==> IsAuthorHasPermission(m, v)
    ensures !IsSafe(m) ==> (ok <==> IsAuthor(v, author))
    ensures ok <==> IsSafe(m) || IsAuthor(v, author)
  {
    IsAuthor(v, author) || IsSafe(m)
  }

  /**
   * The two object permissions disagree in exactly two cases: HEAD or
   * OPTIONS from someone who is neither author nor staff (only
   * `IsAuthorPermissions` admits it), and a writing method from staff who is
   * not the author (only `AuthorStaffOrReadOnly` admits it).
   */
  lemma ObjectPermissionsDiffer(m: Method, v: Viewer, author: nat)
    ensures AuthorStaffOrReadOnly(m, v, author) != IsAuthorHasObjectPermission(m, v, author) <==>
      || ((m == HEAD || m == OPTIONS) && !IsAuthor(v, author) && !IsStaff(v))
      || (!IsSafe(m) && !IsAuthor(v, author) && IsStaff(v))
  {
  }
}

=== FILE: recipe_models.dfy ===
/**
 * The `recipes` application's models: string forms, the listing order, the
 * slug uniqueness constraint, and what deleting a row cascades to.
 */
module RecipeModels {
  import opened Wrappers
  import opened Tables
  import opened Text
  import opened Schema

  // ---- string forms

  /** `Tag.__str__`: the slug cut to its first 15 characters. */
  function TagLabel(t: Tag): (caption: string)
    ensures |caption| == if |t.slug| < 15 then |t.slug| else 15
    ensures IsPrefix(caption, t.slug)
    ensures |t.slug| <= 15 ==> caption == t.slug
  {
    Take(t.slug, 15)
  }

  /** `Ingredient.__str__`: "name, measurement_unit". */
  function IngredientLabel(i: Ingredient): (caption: string)
    ensures |caption| == |i.name| + 2 + |i.measurementUnit|
    ensures caption[..|i.name|] == i.name
    ensures caption[|i.name|..|i.name| + 2] == ", "
    ensures caption[|i.name| + 2..] == i.measurementUnit
  {
    i.name + ", " + i.measurementUnit
  }

  /** Reading an ingredient caption back: split at the first ", ". */
  function SplitLabel(caption: string): Option<(string, string)> {
    if |caption| < 2 then None
    else if caption[0] == ',' && caption[1] == ' ' then Some(("", caption[2..]))
    else
      match SplitLabel(caption[1..])
      case None => None
      case Some(parts) => Some(([caption[0]] + parts.0, parts.1))
  }

  /** A name without a comma and its unit are recovered from the caption. */
  lemma {:induction false} IngredientLabelRoundTrip(i: Ingredient)
    requires ',' !in i.name
    ensures SplitLabel(IngredientLabel(i)) == Some((i.name, i.measurementUnit))
  {
    LabelSplitsAfterName(i.name, i.measurementUnit);
  }

  lemma {:induction false} LabelSplitsAfterName(name: string, unit: string)
    requires ',' !in name
    ensures SplitLabel(name + ", " + unit) == Some((name, unit))
  {
    var caption := name + ", " + unit;
    if |name| == 0 {
      assert caption == ", " + unit;
      assert caption[2..] == unit;
    } else {
      assert name[0] in name;
      assert caption[1..] == name[1..] + ", " + unit;
      assert forall c :: c in name[1..] ==> c in name;
      LabelSplitsAfterName(name[1..], unit);
      assert [name[0]] + name[1..] == name;
    }
  }

  // ---- field validators

  /** A validator a model field can carry; only `MinValueValidator` occurs here. */
  datatype Validator = MinValue(limit: int)

  /** What a field's `validators=` argument holds: a list, or a lone validator object. */
  datatype ValidatorsArg = ValidatorList(items: seq<Validator>) | OneValidator(item: Validator)

  /**
   * Django's field constructor turns `validators=` into a list with `list()`.
   * A lone validator object is not iterable, so that call raises TypeError.
   */
  function FieldValidators(arg: ValidatorsArg): (out: Result<seq<Validator>, Error>)
    ensures out.Failure? <==> arg.OneValidator?
    ensures out.Failure? ==> out.error == TypeError
    ensures out.Success? ==> out.value == arg.items
  {
    match arg
    case ValidatorList(items) => Success(items)
    case OneValidator(_) => Failure(TypeError)
  }

  predicate PassesAll(validators: seq<Validator>, x: int) {
    forall v :: v in validators ==> x >= v.limit
  }

  /** `RecipeIngredient.amount` as written: `validators=MinValueValidator(1)`. */
  const AmountValidatorsAsWritten := OneValidator(MinValue(1))

  /** The evidently intended `validators=[MinValueValidator(1)]`. */
  const AmountValidators := ValidatorList([MinValue(1)])

  /** As written, building the amount field raises, so the models module cannot be imported. */
  lemma AmountFieldRaisesAsWritten()
    ensures FieldValidators(AmountValidatorsAsWritten) == Failure(TypeError)
  {
  }

  /** With the list, the field builds and admits exactly the amounts of at least 1. */
  lemma AmountFieldAdmitsPositive(x: int)
    ensures FieldValidators(AmountValidators).Success?
    ensures PassesAll(FieldValidators(AmountValidators).value, x) <==> x >= 1
  {
  }

  /** `Recipe.__str__` */
  function RecipeLabel(r: Recipe): string {
    r.name
  }

  /** Python's `str(n)` for any integer: a minus sign for a negative value, then its digits. */
  function IntString(n: int): (digits: string)
    ensures n >= 0 ==> IsDecimal(digits) && DecimalValue(digits) == n
    ensures n < 0 ==> |digits| > 1 && digits[0] == '-' && IsDecimal(digits[1..]) && DecimalValue(digits[1..]) == -n
  {
    if n < 0 then
      DecimalRoundTrip(-n);
      assert ("-" + Decimal(-n))[1..] == Decimal(-n);
      "-" + Decimal(-n)
    else
      DecimalRoundTrip(n);
      Decimal(n)
  }

  /** `RecipeIngredient.__str__`: "<ingredient> * <amount>". */
  function RecipeIngredientLabel(i: Ingredient, line: RecipeIngredient): (caption: string)
    ensures |caption| > |IngredientLabel(i)| + 3
    ensures caption[..|IngredientLabel(i)| + 3] == IngredientLabel(i) + " * "
    ensures line.amount >= 0 ==>
      var tail := caption[|IngredientLabel(i)| + 3..];
      IsDecimal(tail) && DecimalValue(tail) == line.amount
  {
    var head := IngredientLabel(i) + " * ";
    var caption := head + IntString(line.amount);
    assert caption[..|head|] == head;
    assert caption[|head|..] == IntString(line.amount);
    caption
  }

  /** `Favorite.__str__` and `ShoppingCart.__str__`, given the user's username and the recipe. */
  function PickLabel(username: string, r: Recipe): (caption: string)
    ensures IsPrefix(username, caption)
    ensures |caption| == |username| + |" добавил рецепт "| + |r.name|
    ensures caption[|username|..|caption| - |r.name|] == " добавил рецепт "
    ensures caption[|caption| - |r.name|..] == r.name
  {
    var caption := username + " добавил рецепт " + RecipeLabel(r);
    assert caption[..|username|] == username;
    assert caption[|username|..|caption| - |r.name|] == " добавил рецепт ";
    caption
  }

  /** Given the username's length, the caption gives back the username and the recipe name. */
  lemma PickLabelDeterminesParts(u1: string, r1: Recipe, u2: string, r2: Recipe)
    requires |u1| == |u2| && PickLabel(u1, r1) == PickLabel(u2, r2)
    ensures u1 == u2 && r1.name == r2.name
  {
    var c := PickLabel(u1, r1);
    assert u1 == c[..|u1|] && u2 == c[..|u2|];
  }

  // ---- listing order

  /** `Recipe.Meta.ordering = ("-id",)` */
  function RecipesNewestFirst(s: Store): seq<Row<Recipe>> {
    NewestFirst(s.recipes.rows)
  }

  /** `Favorite.Meta.ordering = ("-id",)` */
  function FavoritesNewestFirst(s: Store): seq<Row<Favorite>> {
    NewestFirst(s.favorites.rows)
  }

  /** `ShoppingCart.Meta.ordering = ("-id",)` */
  function CartNewestFirst(s: Store): seq<Row<CartEntry>> {
    NewestFirst(s.carts.rows)
  }

  /** In a valid store, the three `-id` listings hold every row, newest first. */
  lemma ListingsNewestFirst(s: Store)
    requires Valid(s)
    ensures Descending(RecipesNewestFirst(s)) && |RecipesNewestFirst(s)| == |s.recipes.rows|
    ensures Descending(FavoritesNewestFirst(s)) && |FavoritesNewestFirst(s)| == |s.favorites.rows|
    ensures Descending(CartNewestFirst(s)) && |CartNewestFirst(s)| == |s.carts.rows|
  {
  }

  // ---- the unique slug

  /** Inserting a tag: the unique index on `slug` refuses a second tag with the same slug. */
  function AddTag(s: Store, t: Tag): (out: Result<Store, Error>)
    ensures out.Failure? <==> exists r :: r in s.tags.rows && r.val.slug == t.slug
    ensures out.Failure? ==> out.error == IntegrityError
    ensures out.Success? ==>
      && out.value == s.(tags := out.value.tags)
      && out.value.tags.rows == s.tags.rows + [Row(s.tags.next, t)]
  {
    if Any(s.tags.rows, (r: Row<Tag>) => r.val.slug == t.slug) then Failure(IntegrityError)
    else Success(s.(tags := Insert(s.tags, t)))
  }

  lemma AddTagPreservesValid(s: Store, t: Tag)
    requires Valid(s)
    requires AddTag(s, t).Success?
    ensures Valid(AddTag(s, t).value)
  {
    var s' := AddTag(s, t).value;
    assert Ids(s.tags.rows) <= Ids(s'.tags.rows);
    var added := Row(s.tags.next, t);
    forall a, b | a in s'.tags.rows && b in s'.tags.rows && a.val.slug == b.val.slug
      ensures a == b
    {
      assert a in s.tags.rows || a == added;
      assert b in s.tags.rows || b == added;
    }
  }

  // ---- cascades

  /**
   * Deleting a recipe: `on_delete=CASCADE` on `RecipeIngredient.recipe`,
   * `Favorite.recipe` and `ShoppingCart.recipe` removes exactly the rows
   * pointing at it; users, follows, tags and ingredients are untouched.
   */
  function DeleteRecipe(s: Store, id: nat): (s': Store)
    ensures Without(s'.recipes, s.recipes, (r: Row<Recipe>) => r.id == id)
    ensures Without(s'.recipeIngredients, s.recipeIngredients, (l: Row<RecipeIngredient>) => l.val.recipe == id)
    ensures Without(s'.favorites, s.favorites, (f: Row<Favorite>) => f.val.recipe == id)
    ensures Without(s'.carts, s.carts, (c: Row<CartEntry>) => c.val.recipe == id)
    ensures s'.users == s.users && s'.follows == s.follows
    ensures s'.tags == s.tags && s'.ingredients == s.ingredients
  {
    s.(recipes := Delete(s.recipes, (r: Row<Recipe>) => r.id == id),
       recipeIngredients := Delete(s.recipeIngredients, (l: Row<RecipeIngredient>) => l.val.recipe == id),
       favorites := Delete(s.favorites, (f: Row<Favorite>) => f.val.recipe == id),
       carts := Delete(s.carts, (c: Row<CartEntry>) => c.val.recipe == id))
  }

  lemma DeleteRecipePreservesValid(s: Store, id: nat)
    requires Valid(s)
    ensures Valid(DeleteRecipe(s, id))
    ensures !RecipeExists(DeleteRecipe(s, id), id)
  {
    var s' := DeleteRecipe(s, id);
    forall x | x in Ids(s.recipes.rows) && x != id
      ensures x in Ids(s'.recipes.rows)
    {
      var r :| r in s.recipes.rows && r.id == x;
      assert r in s'.recipes.rows;
    }
  }

  /** Deleting an ingredient: `RecipeIngredient.ingredient` cascades. */
  function DeleteIngredient(s: Store, id: nat): (s': Store)
    ensures Without(s'.ingredients, s.ingredients, (i: Row<Ingredient>) => i.id == id)
    ensures Without(s'.recipeIngredients, s.recipeIngredients, (l: Row<RecipeIngredient>) => l.val.ingredient == id)
    ensures s'.users == s.users && s'.follows == s.follows && s'.tags == s.tags
    ensures s'.recipes == s.recipes && s'.favorites == s.favorites && s'.carts == s.carts
  {
    s.(ingredients := Delete(s.ingredients, (i: Row<Ingredient>) => i.id == id),
       recipeIngredients := Delete(s.recipeIngredients, (l: Row<RecipeIngredient>) => l.val.ingredient == id))
  }

  lemma DeleteIngredientPreservesValid(s: Store, id: nat)
    requires Valid(s)
    ensures Valid(DeleteIngredient(s, id))
  {
    var s' := DeleteIngredient(s, id);
    forall x | x in Ids(s.ingredients.rows) && x != id
      ensures x in Ids(s'.ingredients.rows)
    {
      var r :| r in s.ingredients.rows && r.id == x;
      assert r in s'.ingredients.rows;
    }
  }

  /**
   * Deleting a tag: the rows of the many-to-many `Recipe.tags` table that
   * name it go, so every recipe loses that tag and keeps everything else.
   */
  function DeleteTag(s: Store, id: nat): (s': Store)
    ensures Without(s'.tags, s.tags, (t: Row<Tag>) => t.id == id)
    ensures s'.recipes.next == s.recipes.next && |s'.recipes.rows| == |s.recipes.rows|
    ensures forall i :: 0 <= i < |s.recipes.rows| ==>
      s'.recipes.rows[i] == s.recipes.rows[i].(val := s.recipes.rows[i].val.(tags := s.recipes.rows[i].val.tags - {id}))
    ensures s'.users == s.users && s'.follows == s.follows && s'.ingredients == s.ingredients
    ensures s'.recipeIngredients == s.recipeIngredients && s'.favorites == s.favorites && s'.carts == s.carts
  {
    s.(tags := Delete(s.tags, (t: Row<Tag>) => t.id == id),
       recipes := s.recipes.(rows := StripTag(s.recipes.rows, id)))
  }

  /** The recipe rows with tag `id` removed from every tag set. */
  function StripTag(rows: seq<Row<Recipe>>, id: nat): seq<Row<Recipe>> {
    Update(rows, (r: Row<Recipe>) => r.val.(tags := r.val.tags - {id}))
  }

  lemma DeleteTagPreservesValid(s: Store, id: nat)
    requires Valid(s)
    ensures Valid(DeleteTag(s, id))
    ensures forall r :: r in DeleteTag(s, id).recipes.rows ==> id !in r.val.tags
  {
    var s' := DeleteTag(s, id);
    forall x | x in Ids(s.tags.rows) && x != id
      ensures x in Ids(s'.tags.rows)
    {
      var r :| r in s.tags.rows && r.id == x;
      assert r in s'.tags.rows;
    }
    DeleteTagKeepsRecipes(s, id);
    assert Consistent(s');
  }

  /** Stripping a tag keeps every recipe's id and author, keeps tag sets resolved, and leaves no recipe with the tag. */
  lemma DeleteTagKeepsRecipes(s: Store, id: nat)
    requires Valid(s)
    requires forall x :: x in Ids(s.tags.rows) && x != id ==> x in Ids(DeleteTag(s, id).tags.rows)
    ensures Ids(DeleteTag(s, id).recipes.rows) == Ids(s.recipes.rows)
    ensures RecipesResolve(DeleteTag(s, id))
    ensures CookingTimesPositive(DeleteTag(s, id).recipes.rows)
    ensures WellFormed(DeleteTag(s, id).recipes)
    ensures forall r :: r in DeleteTag(s, id).recipes.rows ==> id !in r.val.tags
  {
    StripTagKeepsIds(s.recipes.rows, id);
    StripTagKeepsFields(s.recipes.rows, id, Ids(s.users.rows), Ids(s.tags.rows), s.recipes.next);
  }

  lemma StripTagKeepsIds(rows: seq<Row<Recipe>>, id: nat)
    ensures Ids(StripTag(rows, id)) == Ids(rows)
  {
    var rows' := StripTag(rows, id);
    forall x | x in Ids(rows')
      ensures x in Ids(rows)
    {
      var r' :| r' in rows' && r'.id == x;
      var i :| 0 <= i < |rows'| && rows'[i] == r';
      assert rows[i] in rows;
    }
    forall x | x in Ids(rows)
      ensures x in Ids(rows')
    {
      var r :| r in rows && r.id == x;
      var i :| 0 <= i < |rows| && rows[i] == r;
      assert rows'[i] in rows';
    }
  }

  lemma StripTagKeepsFields(rows: seq<Row<Recipe>>, id: nat, users: set<nat>, tags: set<nat>, next: nat)
    requires forall r :: r in rows ==> r.val.author in users && r.val.tags <= tags && r.val.cookingTime >= 1 && r.id < next
    ensures forall r :: r in StripTag(rows, id) ==>
      r.val.author in users && r.val.tags <= tags - {id} && r.val.cookingTime >= 1 && r.id < next
  {
    var rows' := StripTag(rows, id);
    forall r' | r' in rows'
      ensures r'.val.author in users && r'.val.tags <= tags - {id} && r'.val.cookingTime >= 1 && r'.id < next
    {
      var i :| 0 <= i < |rows'| && rows'[i] == r';
      assert rows[i] in rows;
    }
  }
}

=== FILE: schema.dfy ===
/**
 * The relational store of the recipe-sharing backend: one table per model of
 * the `users` and `recipes` applications, the integrity rules the schema
 * declares, and the shapes of callers and replies shared by the API layer.
 *
 * Foreign keys are stored as the referenced row's id. The many-to-many
 * `Recipe.tags` relation is kept inside the recipe row as the set of tag ids.
 */
module Schema {
  import opened Tables

  /** `users.User`: `email` is the login field and is unique; `username`, inherited, is unique too. */
  datatype User = User(
    email: string,
    username: string,
    firstName: string,
    lastName: string,
    isStaff: bool,
    isSuperuser: bool)

  /** `users.Follow`: `user` subscribes to `author`. */
  datatype Follow = Follow(user: nat, author: nat)

  /** `recipes.Tag`: `slug` is unique. */
  datatype Tag = Tag(name: string, color: string, slug: string)

  /** `recipes.Ingredient` */
  datatype Ingredient = Ingredient(name: string, measurementUnit: string)

  /** `recipes.Recipe`, with its tag set folded in. */
  datatype Recipe = Recipe(
    author: nat,
    name: string,
    image: string,
    text: string,
    cookingTime: int,
    tags: set<nat>)

  /** `recipes.RecipeIngredient`: `amount` of one ingredient in one recipe. */
  datatype RecipeIngredient = RecipeIngredient(recipe: nat, ingredient: nat, amount: int)

  /** `recipes.Favorite`: no uniqueness on (user, recipe). */
  datatype Favorite = Favorite(user: nat, recipe: nat)

  /** `recipes.ShoppingCart`: no uniqueness on (user, recipe). */
  datatype CartEntry = CartEntry(user: nat, recipe: nat)

  datatype Store = Store(
    users: Table<User>,
    follows: Table<Follow>,
    tags: Table<Tag>,
    ingredients: Table<Ingredient>,
    recipes: Table<Recipe>,
    recipeIngredients: Table<RecipeIngredient>,
    favorites: Table<Favorite>,
    carts: Table<CartEntry>)

  /** The identity a request carries: Django's anonymous user, or a signed-in user row. */
  datatype Viewer = Anonymous | Member(id: nat, isStaff: bool, isSuperuser: bool)

  /** Exceptions that escape an operation. */
  datatype Error =
    | ValidationError
    | IntegrityError
    | MultipleObjectsReturned
    | AttributeError
    | TypeError

  /** What a view hands back. `NoResponse` is a view that returns nothing at all. */
  datatype Reply = Created | NoContent | BadRequest | NotFound | Raised(error: Error) | NoResponse {
    /** The HTTP status the client sees; an escaping exception, or a missing response, is a server error. */
    function Code(): nat {
      match this
      case Created => 201
      case NoContent => 204
      case BadRequest => 400
      case NotFound => 404
      case Raised(_) => 500
      case NoResponse => 500
    }
  }

  // ---- lookups shared by views, serializers and filters

  predicate UserExists(s: Store, id: nat) {
    HasId(s.users.rows, id)
  }

  predicate RecipeExists(s: Store, id: nat) {
    HasId(s.recipes.rows, id)
  }

  /** The row condition `user=user, recipe=recipe` on `Favorite`. */
  function FavoriteOf(user: nat, recipe: nat): Row<Favorite> -> bool {
    (f: Row<Favorite>) => f.val == Favorite(user, recipe)
  }

  /** The row condition `user=user, recipe=recipe` on `ShoppingCart`. */
  function CartEntryOf(user: nat, recipe: nat): Row<CartEntry> -> bool {
    (c: Row<CartEntry>) => c.val == CartEntry(user, recipe)
  }

  /** The row condition `user=user, author=author` on `Follow`. */
  function FollowOf(user: nat, author: nat): Row<Follow> -> bool {
    (f: Row<Follow>) => f.val == Follow(user, author)
  }

  /** `Favorite.objects.filter(user=user, recipe=recipe).exists()` */
  predicate HasFavorite(s: Store, user: nat, recipe: nat) {
    Any(s.favorites.rows, FavoriteOf(user, recipe))
  }

  /** `ShoppingCart.objects.filter(user=user, recipe=recipe).exists()` */
  predicate InCart(s: Store, user: nat, recipe: nat) {
    Any(s.carts.rows, CartEntryOf(user, recipe))
  }

  /** `Follow.objects.filter(user=user, author=author).exists()` */
  predicate IsFollowing(s: Store, user: nat, author: nat) {
    Any(s.follows.rows, FollowOf(user, author))
  }

  // ---- integrity rules

  predicate TablesWellFormed(s: Store) {
    && WellFormed(s.users)
    && WellFormed(s.follows)
    && WellFormed(s.tags)
    && WellFormed(s.ingredients)
    && WellFormed(s.recipes)
    && WellFormed(s.recipeIngredients)
    && WellFormed(s.favorites)
    && WellFormed(s.carts)
  }

  ghost predicate FollowsResolve(s: Store) {
    forall f :: f in s.follows.rows ==>
      f.val.user in Ids(s.users.rows) && f.val.author in Ids(s.users.rows)
  }

  ghost predicate RecipesResolve(s: Store) {
    forall r :: r in s.recipes.rows ==>
      r.val.author in Ids(s.users.rows) && r.val.tags <= Ids(s.tags.rows)
  }

  ghost predicate LinesResolve(s: Store) {
    forall l :: l in s.recipeIngredients.rows ==>
      l.val.recipe in Ids(s.recipes.rows) && l.val.ingredient in Ids(s.ingredients.rows)
  }

  ghost predicate FavoritesResolve(s: Store) {
    forall f :: f in s.favorites.rows ==>
      f.val.user in Ids(s.users.rows) && f.val.recipe in Ids(s.recipes.rows)
  }

  ghost predicate CartsResolve(s: Store) {
    forall c :: c in s.carts.rows ==>
      c.val.user in Ids(s.users.rows) && c.val.recipe in Ids(s.recipes.rows)
  }

  /** Every foreign key names an existing row. */
  ghost predicate Consistent(s: Store) {
    && FollowsResolve(s)
    && RecipesResolve(s)
    && LinesResolve(s)
    && FavoritesResolve(s)
    && CartsResolve(s)
  }

  /** `email = EmailField(unique=True)`: two rows with one e-mail are the same row. */
  predicate UniqueEmails(rows: seq<Row<User>>) {
    forall a, b :: a in rows && b in rows && a.val.email == b.val.email ==> a == b
  }

  /** `AbstractUser.username` is declared unique: two rows with one username are the same row. */
  predicate UniqueUsernames(rows: seq<Row<User>>) {
    forall a, b :: a in rows && b in rows && a.val.username == b.val.username ==> a == b
  }

  /** `slug = SlugField(unique=True)`: two rows with one slug are the same row. */
  predicate UniqueSlugs(rows: seq<Row<Tag>>) {
    forall a, b :: a in rows && b in rows && a.val.slug == b.val.slug ==> a == b
  }

  /** `cooking_time` carries `MinValueValidator(1)`. */
  predicate CookingTimesPositive(rows: seq<Row<Recipe>>) {
    forall r :: r in rows ==> r.val.cookingTime >= 1
  }

  /** `amount` carries `MinValueValidator(1)`. */
  predicate AmountsPositive(rows: seq<Row<RecipeIngredient>>) {
    forall l :: l in rows ==> l.val.amount >= 1
  }

  /** `Follow.save` refuses a user following themself. */
  predicate NoSelfFollows(rows: seq<Row<Follow>>) {
    forall f :: f in rows ==> f.val.user != f.val.author
  }

  /** The store a correct sequence of operations keeps. */
  ghost predicate Valid(s: Store) {
    && TablesWellFormed(s)
    && Consistent(s)
    && UniqueEmails(s.users.rows)
    && UniqueUsernames(s.users.rows)
    && UniqueSlugs(s.tags.rows)
    && CookingTimesPositive(s.recipes.rows)
    && AmountsPositive(s.recipeIngredients.rows)
    && NoSelfFollows(s.follows.rows)
  }
}

=== FILE: serializers.dfy ===
/**
 * The serializers' logic: validating and creating a recipe with its
 * ingredient rows, and the viewer-relative flags `is_favorited`,
 * `is_in_shopping_cart` and `is_subscribed`.
 */
module Serializers {
  import opened Wrappers
  import opened Tables
  import opened Text
  import opened Schema
  import Views
  import UserModels

  /** One `ingredients` entry of the payload: the ingredient's id and its amount. */
  datatype Entry = Entry(ingredient: nat, amount: int)

  /** The recipe fields `RecipeCreateSerializer` accepts. */
  datatype Payload = Payload(
    tags: seq<nat>,
    ingredients: seq<Entry>,
    name: string,
    image: string,
    text: string,
    cookingTime: int)

  /** The largest value a `PositiveIntegerField` column holds, which its generated serializer field enforces. */
  const MaxPositive := 2147483647

  /**
   * What validation establishes about the related fields: each tag id and
   * ingredient id names an existing row (the primary-key related fields),
   * and each amount lies between 1 (the model field's validator) and the
   * column's maximum.
   */
  predicate Resolves(s: Store, p: Payload) {
    && (forall t :: t in p.tags ==> HasId(s.tags.rows, t))
    && (forall e :: e in p.ingredients ==>
          HasId(s.ingredients.rows, e.ingredient) && 1 <= e.amount <= MaxPositive)
  }

  /**
   * What the generated `name` and `text` fields accept: neither model field
   * allows blanks, so after surrounding whitespace is trimmed neither may be
   * empty, and the trimmed name fits `max_length=200`.
   */
  predicate FieldsPresent(p: Payload) {
    && !AllSpace(p.name) && |Strip(p.name)| <= 200 && NulFree(p.name)
    && !AllSpace(p.text) && NulFree(p.text)
  }

  /** The validated data: `name` and `text` with surrounding whitespace trimmed. */
  function Clean(p: Payload): (q: Payload)
    ensures q.tags == p.tags && q.ingredients == p.ingredients && q.image == p.image
    ensures q.cookingTime == p.cookingTime
    ensures q.name == Strip(p.name) && q.text == Strip(p.text)
    ensures |q.name| <= |p.name| && |q.text| <= |p.text|
    ensures FieldsPresent(p) ==> |q.name| > 0 && |q.text| > 0
  {
    p.(name := Strip(p.name), text := Strip(p.text))
  }

  /** `is_valid()` as written: `cooking_time` is a plain integer field with no bound. */
  function CheckAsWritten(s: Store, p: Payload): (out: Result<Payload, Error>)
    ensures out.Success? <==> Resolves(s, p) && FieldsPresent(p)
    ensures out.Success? ==> out.value == Clean(p)
    ensures out.Failure? ==> out.error == ValidationError
  {
    if Resolves(s, p) && FieldsPresent(p) then Success(Clean(p)) else Failure(ValidationError)
  }

  /** `is_valid()` with the model's `MinValueValidator(1)` on `cooking_time` in force. */
  function Check(s: Store, p: Payload): (out: Result<Payload, Error>)
    ensures out.Success? <==> Resolves(s, p) && FieldsPresent(p) && p.cookingTime >= 1
    ensures out.Success? ==> out.value == Clean(p)
    ensures out.Failure? ==> out.error == ValidationError
  {
    if Resolves(s, p) && FieldsPresent(p) && p.cookingTime >= 1 then Success(Clean(p))
    else Failure(ValidationError)
  }

  /** Validating cleaned data again changes nothing. */
  lemma CleanIdempotent(p: Payload)
    ensures Clean(Clean(p)) == Clean(p)
  {
    StripIdempotent(p.name);
    StripIdempotent(p.text);
  }

  /** The loop of `create`: one saved recipe-ingredient row per entry, in order. */
  function AddLines(t: Table<RecipeIngredient>, recipe: nat, entries: seq<Entry>): (t': Table<RecipeIngredient>)
    ensures t'.next == t.next + |entries|
    ensures |t'.rows| == |t.rows| + |entries|
    ensures t'.rows[..|t.rows|] == t.rows
    ensures forall k :: 0 <= k < |entries| ==>
      t'.rows[|t.rows| + k] == Row(t.next + k, RecipeIngredient(recipe, entries[k].ingredient, entries[k].amount))
    ensures WellFormed(t) ==> WellFormed(t')
    decreases |entries|
  {
    if |entries| == 0 then t
    else
      var e := entries[0];
      var t1 := Insert(t, RecipeIngredient(recipe, e.ingredient, e.amount));
      var t' := AddLines(t1, recipe, entries[1..]);
      assert t'.rows[..|t1.rows|] == t1.rows;
      assert t'.rows[..|t.rows|] == t1.rows[..|t.rows|];
      assert t'.rows[|t.rows|] == t1.rows[|t.rows|];
      assert forall k :: 1 <= k < |entries| ==> entries[1..][k - 1] == entries[k];
      t'
  }

  /** The tag set the many-to-many field is set to. */
  function TagSet(ids: seq<nat>): (tags: set<nat>)
    ensures forall t :: t in tags <==> t in ids
  {
    set t | t in ids
  }

  /**
   * `RecipeCreateSerializer.create` on validated data, with the author
   * passed to `save`. `ingredients` is taken out of the data; the recipe is
   * created from the remaining fields (a negative `cooking_time` violates the
   * database's non-negative check and raises); its tags are set; then one
   * recipe-ingredient row per entry is saved; the new recipe is returned.
   */
  /**
   * The effect of a successful `create`: `made` is the new recipe with the
   * next id, the author and the payload's fields; it is appended to the
   * recipes; one recipe-ingredient row per entry follows the earlier rows,
   * in order; no other table changes.
   */
  ghost predicate Stored(s: Store, author: nat, p: Payload, s': Store, made: Row<Recipe>) {
    var before := s.recipeIngredients.rows;
    && made.id == s.recipes.next
    && made.val.author == author && made.val.name == p.name && made.val.image == p.image
    && made.val.text == p.text && made.val.cookingTime == p.cookingTime
    && (forall t :: t in made.val.tags <==> t in p.tags)
    && s'.recipes.rows == s.recipes.rows + [made]
    && |s'.recipeIngredients.rows| == |before| + |p.ingredients|
    && s'.recipeIngredients.rows[..|before|] == before
    && (forall k :: 0 <= k < |p.ingredients| ==>
          s'.recipeIngredients.rows[|before| + k].val
            == RecipeIngredient(made.id, p.ingredients[k].ingredient, p.ingredients[k].amount))
    && s' == s.(recipes := s'.recipes, recipeIngredients := s'.recipeIngredients)
  }

  function Create(s: Store, author: nat, p: Payload): (out: Result<(Store, Row<Recipe>), Error>)
    requires Resolves(s, p) && UserExists(s, author)
    ensures out.Failure? <==> p.cookingTime < 0
    ensures out.Failure? ==> out.error == IntegrityError
    ensures out.Success? ==> Stored(s, author, p, out.value.0, out.value.1)
  {
    if p.cookingTime < 0 then Failure(IntegrityError)
    else
      var made := Row(s.recipes.next, Recipe(author, p.name, p.image, p.text, p.cookingTime, TagSet(p.tags)));
      var lines := AddLines(s.recipeIngredients, made.id, p.ingredients);
      Success((s.(recipes := Insert(s.recipes, made.val), recipeIngredients := lines), made))
  }

  /** Validation followed by `create`, the path a recipe submission takes. */
  function Submit(s: Store, author: nat, p: Payload): (out: Result<(Store, Row<Recipe>), Error>)
    requires UserExists(s, author)
    ensures out.Failure? <==> !Resolves(s, p) || !FieldsPresent(p) || p.cookingTime < 1
    ensures out.Failure? ==> out.error == ValidationError
    ensures out.Success? ==> Stored(s, author, Clean(p), out.value.0, out.value.1)
    ensures out.Success? ==> out.value.1.val.name == Strip(p.name) && out.value.1.val.text == Strip(p.text)
  {
    var checked :- Check(s, p);
    Create(s, author, checked)
  }

  /** The same path with validation as written. */
  function SubmitAsWritten(s: Store, author: nat, p: Payload): (out: Result<(Store, Row<Recipe>), Error>)
    requires UserExists(s, author)
    ensures !(Resolves(s, p) && FieldsPresent(p)) ==> out == Failure(ValidationError)
    ensures Resolves(s, p) && FieldsPresent(p) && p.cookingTime < 0 ==> out == Failure(IntegrityError)
    ensures Resolves(s, p) && FieldsPresent(p) && p.cookingTime >= 0 ==>
      && out.Success?
      && Stored(s, author, Clean(p), out.value.0, out.value.1)
      && out.value.1.val.cookingTime == p.cookingTime
  {
    var checked :- CheckAsWritten(s, p);
    Create(s, author, checked)
  }

  /** A zero cooking time passes validation as written and is stored, breaking the model's rule. */
  lemma ZeroCookingTimeStored(s: Store, author: nat, p: Payload)
    requires Resolves(s, p) && FieldsPresent(p) && UserExists(s, author)
    requires p.cookingTime == 0
    ensures SubmitAsWritten(s, author, p).Success?
    ensures !CookingTimesPositive(SubmitAsWritten(s, author, p).value.0.recipes.rows)
  {
    var made := SubmitAsWritten(s, author, p).value.1;
    assert made in SubmitAsWritten(s, author, p).value.0.recipes.rows;
  }

  /** Every accepted submission keeps the store valid: positive cooking time and amounts, resolved keys. */
  lemma SubmitPreservesValid(s: Store, author: nat, p: Payload)
    requires Valid(s) && UserExists(s, author)
    requires Resolves(s, p) && FieldsPresent(p) && p.cookingTime >= 1
    ensures Submit(s, author, p).Success?
    ensures Valid(Submit(s, author, p).value.0)
    ensures RecipeExists(Submit(s, author, p).value.0, Submit(s, author, p).value.1.id)
  {
    var q := Clean(p);
    assert Submit(s, author, p) == Create(s, author, q);
    var (s', made) := Create(s, author, q).value;
    assert made in s'.recipes.rows;
    CreatedRecipeResolves(s, author, q);
    CreatedLinesResolve(s, author, q);
  }

  lemma CreatedRecipeResolves(s: Store, author: nat, p: Payload)
    requires Valid(s) && UserExists(s, author) && Resolves(s, p) && p.cookingTime >= 1
    ensures Create(s, author, p).Success?
    ensures RecipesResolve(Create(s, author, p).value.0)
    ensures CookingTimesPositive(Create(s, author, p).value.0.recipes.rows)
    ensures WellFormed(Create(s, author, p).value.0.recipes)
  {
    var (s', made) := Create(s, author, p).value;
    assert made.val.author in Ids(s.users.rows) by {
      var u :| u in s.users.rows && u.id == author;
    }
    assert made.val.tags <= Ids(s.tags.rows) by {
      forall t | t in made.val.tags
        ensures t in Ids(s.tags.rows)
      {
        assert t in p.tags;
        var r :| r in s.tags.rows && r.id == t;
      }
    }
  }

  lemma CreatedLinesResolve(s: Store, author: nat, p: Payload)
    requires Valid(s) && UserExists(s, author) && Resolves(s, p) && p.cookingTime >= 1
    ensures Create(s, author, p).Success?
    ensures LinesResolve(Create(s, author, p).value.0)
    ensures AmountsPositive(Create(s, author, p).value.0.recipeIngredients.rows)
  {
    var (s', made) := Create(s, author, p).value;
    assert made in s'.recipes.rows;
    assert Ids(s.recipes.rows) <= Ids(s'.recipes.rows);
    forall e | e in p.ingredients
      ensures e.ingredient in Ids(s.ingredients.rows) && e.amount >= 1
    {
      var g :| g in s.ingredients.rows && g.id == e.ingredient;
    }
    AddedLinesResolve(s.recipeIngredients, made.id, p.ingredients, Ids(s'.recipes.rows), Ids(s.ingredients.rows));
  }

  /** Lines added for a known recipe from resolved entries keep every line resolved and positive. */
  lemma AddedLinesResolve(t: Table<RecipeIngredient>, recipe: nat, entries: seq<Entry>,
                          recipes: set<nat>, ingredients: set<nat>)
    requires recipe in recipes
    requires forall l :: l in t.rows ==> l.val.recipe in recipes && l.val.ingredient in ingredients && l.val.amount >= 1
    requires forall e :: e in entries ==> e.ingredient in ingredients && e.amount >= 1
    ensures forall l :: l in AddLines(t, recipe, entries).rows ==>
      l.val.recipe in recipes && l.val.ingredient in ingredients && l.val.amount >= 1
  {
    var t' := AddLines(t, recipe, entries);
    forall l | l in t'.rows
      ensures l.val.recipe in recipes && l.val.ingredient in ingredients && l.val.amount >= 1
    {
      var i :| 0 <= i < |t'.rows| && t'.rows[i] == l;
      if i < |t.rows| {
        assert t'.rows[..|t.rows|][i] == l;
        assert l in t.rows;
      } else {
        assert entries[i - |t.rows|] in entries;
      }
    }
  }

  // ---- viewer-relative flags

  /** `get_is_favorited`: false for an anonymous viewer, else "some favourite row (viewer, recipe) exists". */
  function IsFavorited(s: Store, viewer: Viewer, recipe: nat): (flag: bool)
    ensures viewer.Anonymous? ==> !flag
    ensures viewer.Member? ==>
      (flag <==> exists f :: f in s.favorites.rows && f.val.recipe == recipe && f.val.user == viewer.id)
  {
    viewer.Member? && HasFavorite(s, viewer.id, recipe)
  }

  /** `get_is_in_shopping_cart`: false for an anonymous viewer, else "some cart row (viewer, recipe) exists". */
  function IsInShoppingCart(s: Store, viewer: Viewer, recipe: nat): (flag: bool)
    ensures viewer.Anonymous? ==> !flag
    ensures viewer.Member? ==>
      (flag <==> exists c :: c in s.carts.rows && c.val.recipe == recipe && c.val.user == viewer.id)
  {
    viewer.Member? && InCart(s, viewer.id, recipe)
  }

  /** `UserSerializer.get_is_subscribed`: false for an anonymous viewer, else "the viewer follows `author`". */
  function IsSubscribed(s: Store, viewer: Viewer, author: nat): (flag: bool)
    ensures viewer.Anonymous? ==> !flag
    ensures viewer.Member? ==>
      (flag <==> exists f :: f in s.follows.rows && f.val.author == author && f.val.user == viewer.id)
  {
    viewer.Member? && IsFollowing(s, viewer.id, author)
  }

  /** After a 201 from the cart view the flag is true for that user; after a 204 it is false. */
  lemma CartFlagFollowsCartViews(s: Store, viewer: Viewer, recipe: nat)
    requires viewer.Member?
    ensures Views.AddToCart(s, viewer.id, recipe).0 == Created ==>
      IsInShoppingCart(Views.AddToCart(s, viewer.id, recipe).1, viewer, recipe)
    ensures Views.RemoveFromCart(s, viewer.id, recipe).0 == NoContent ==>
      !IsInShoppingCart(Views.RemoveFromCart(s, viewer.id, recipe).1, viewer, recipe)
  {
    if Views.AddToCart(s, viewer.id, recipe).0 == Created {
      var added := Row(s.carts.next, CartEntry(viewer.id, recipe));
      assert added in Views.AddToCart(s, viewer.id, recipe).1.carts.rows;
    }
  }

  /** After a successful `Follow.save` the flag is true; after an unsubscribe it is false. */
  lemma SubscribedFlagFollowsFollowRows(s: Store, viewer: Viewer, author: nat)
    requires viewer.Member?
    ensures UserModels.SaveFollow(s, Follow(viewer.id, author)).Success? ==>
      IsSubscribed(UserModels.SaveFollow(s, Follow(viewer.id, author)).value, viewer, author)
    ensures Views.Unfollow(s, viewer.id, author).0 == NoResponse ==>
      !IsSubscribed(Views.Unfollow(s, viewer.id, author).1, viewer, author)
  {
    CountZero(s.follows.rows, FollowOf(viewer.id, author));
  }
}

=== FILE: tables.dfy ===
/**
 * Relational tables as immutable values.
 *
 * Every table of the store is a sequence of rows in insertion order together
 * with the next value of its auto-increment primary-key sequence. Ids are
 * handed out in increasing order and never reused, so a well-formed table
 * keeps its rows in strictly ascending id order; a `filter` or `delete` keeps
 * a subsequence, and the `ordering = ("-id",)` listing is the reversal.
 */
module Tables {

  /** One stored row: its primary key and its fields. */
  datatype Row<T> = Row(id: nat, val: T)

  /** A table: its rows, oldest first, and the id the next insert receives. */
  datatype Table<T> = Table(rows: seq<Row<T>>, next: nat)

  predicate Ascending<T>(rows: seq<Row<T>>) {
    forall i, j :: 0 <= i < j < |rows| ==> rows[i].id < rows[j].id
  }

  predicate Descending<T>(rows: seq<Row<T>>) {
    forall i, j :: 0 <= i < j < |rows| ==> rows[i].id > rows[j].id
  }

  /** Ids strictly increase along the rows and all lie below the sequence's next value. */
  predicate WellFormed<T(==)>(t: Table<T>) {
    && Ascending(t.rows)
    && forall r :: r in t.rows ==> r.id < t.next
  }

  /** The primary keys present in `rows`. */
  ghost function Ids<T>(rows: seq<Row<T>>): set<nat> {
    set r | r in rows :: r.id
  }

  /** Is there a row with primary key `id`? (`get_object_or_404` finds one.) */
  predicate HasId<T(==)>(rows: seq<Row<T>>, id: nat) {
    exists r :: r in rows && r.id == id
  }

  /** `.filter(...).exists()` */
  predicate Any<T(==)>(rows: seq<Row<T>>, p: Row<T> -> bool) {
    exists r :: r in rows && p(r)
  }

  /**
   * The rows `keep` accepts, in their original order: a queryset `filter`,
   * and with the condition negated, the rows a `delete` leaves behind.
   */
  function Where<T(==)>(rows: seq<Row<T>>, keep: Row<T> -> bool): (kept: seq<Row<T>>)
    ensures |kept| <= |rows|
    ensures forall r :: r in kept ==> r in rows && keep(r)
    ensures forall r :: r in rows && keep(r) ==> r in kept
    ensures Ascending(rows) ==> Ascending(kept)
    ensures Descending(rows) ==> Descending(kept)
  {
    if |rows| == 0 then []
    else
      var rest := Where(rows[1..], keep);
      if keep(rows[0]) then
        PrependAscending(rows, rest);
        PrependDescending(rows, rest);
        [rows[0]] + rest
      else rest
  }

  /** `.filter(...).count()` */
  function Count<T(==)>(rows: seq<Row<T>>, p: Row<T> -> bool): nat {
    |Where(rows, p)|
  }

  /** `INSERT`: the new row takes the next value of the table's id sequence. */
  function Insert<T(==)>(t: Table<T>, v: T): (t': Table<T>)
    ensures t'.rows == t.rows + [Row(t.next, v)]
    ensures t'.next == t.next + 1
    ensures WellFormed(t) ==> WellFormed(t') && t.next !in Ids(t.rows)
  {
    Table(t.rows + [Row(t.next, v)], t.next + 1)
  }

  /** `DELETE ... WHERE doomed`: exactly the doomed rows leave, the sequence is untouched. */
  function Delete<T(==)>(t: Table<T>, doomed: Row<T> -> bool): (t': Table<T>)
    ensures Without(t', t, doomed)
    ensures |t'.rows| <= |t.rows|
    ensures WellFormed(t) ==> WellFormed(t')
  {
    t.(rows := Where(t.rows, r => !doomed(r)))
  }

  /**
   * `t'` is `t` after deleting exactly the `doomed` rows: every other row
   * stays, no doomed row stays, nothing is added, the id sequence is untouched.
   */
  ghost predicate Without<T>(t': Table<T>, t: Table<T>, doomed: Row<T> -> bool) {
    && t'.next == t.next
    && (forall r :: r in t'.rows ==> r in t.rows && !doomed(r))
    && (forall r :: r in t.rows && !doomed(r) ==> r in t'.rows)
  }

  /** `UPDATE ... SET`: every row keeps its id and takes the fields `f` gives it. */
  function Update<T>(rows: seq<Row<T>>, f: Row<T> -> T): (rows': seq<Row<T>>)
    ensures |rows'| == |rows|
    ensures forall i :: 0 <= i < |rows| ==> rows'[i].id == rows[i].id && rows'[i].val == f(rows[i])
    ensures Ascending(rows) ==> Ascending(rows')
  {
    seq(|rows|, i requires 0 <= i < |rows| => Row(rows[i].id, f(rows[i])))
  }

  /** The listing under `ordering = ("-id",)`: the newest row first. */
  function NewestFirst<T>(rows: seq<Row<T>>): (listed: seq<Row<T>>)
    ensures |listed| == |rows|
    ensures forall i :: 0 <= i < |rows| ==> listed[i] == rows[|rows| - 1 - i]
    ensures Ascending(rows) ==> Descending(listed)
  {
    if |rows| == 0 then [] else NewestFirst(rows[1..]) + [rows[0]]
  }

  /** A row older than every row of an ascending `rest` drawn from the tail may lead it. */
  lemma PrependAscending<T>(rows: seq<Row<T>>, rest: seq<Row<T>>)
    requires |rows| > 0
    requires forall r :: r in rest ==> r in rows[1..]
    ensures Ascending(rows) && Ascending(rest) ==> Ascending([rows[0]] + rest)
  {
    if Ascending(rows) && Ascending(rest) {
      forall j | 0 < j < |[rows[0]] + rest|
        ensures rows[0].id < ([rows[0]] + rest)[j].id
      {
        var r := rest[j - 1];
        assert r in rows[1..];
        var k :| 0 <= k < |rows[1..]| && rows[1..][k] == r;
        assert rows[k + 1] == r;
      }
    }
  }

  /** A row newer than every row of a descending `rest` drawn from the tail may lead it. */
  lemma PrependDescending<T>(rows: seq<Row<T>>, rest: seq<Row<T>>)
    requires |rows| > 0
    requires forall r :: r in rest ==> r in rows[1..]
    ensures Descending(rows) && Descending(rest) ==> Descending([rows[0]] + rest)
  {
    if Descending(rows) && Descending(rest) {
      forall j | 0 < j < |[rows[0]] + rest|
        ensures rows[0].id > ([rows[0]] + rest)[j].id
      {
        var r := rest[j - 1];
        assert r in rows[1..];
        var k :| 0 <= k < |rows[1..]| && rows[1..][k] == r;
        assert rows[k + 1] == r;
      }
    }
  }

  lemma {:induction false} WhereKeepsAll<T>(rows: seq<Row<T>>, keep: Row<T> -> bool)
    requires forall r :: r in rows ==> keep(r)
    ensures Where(rows, keep) == rows
  {
    if |rows| > 0 {
      WhereKeepsAll(rows[1..], keep);
    }
  }

  lemma WhereNone<T>(rows: seq<Row<T>>, keep: Row<T> -> bool)
    requires !Any(rows, keep)
    ensures Where(rows, keep) == []
  {
    if Where(rows, keep) != [] {
      assert Where(rows, keep)[0] in Where(rows, keep);
    }
  }

  /** No row matches exactly when the count is zero. */
  lemma CountZero<T>(rows: seq<Row<T>>, p: Row<T> -> bool)
    ensures Count(rows, p) == 0 <==> !Any(rows, p)
  {
    if !Any(rows, p) {
      WhereNone(rows, p);
    } else {
      var r :| r in rows && p(r);
      assert r in Where(rows, p);
    }
  }

  /** Every row is either kept by `p` or kept by its negation. */
  lemma {:induction false} WhereSplits<T>(rows: seq<Row<T>>, p: Row<T> -> bool)
    ensures |Where(rows, p)| + |Where(rows, r => !p(r))| == |rows|
  {
    if |rows| > 0 {
      WhereSplits(rows[1..], p);
    }
  }

  lemma {:induction false} WhereAppend<T>(rows: seq<Row<T>>, x: Row<T>, keep: Row<T> -> bool)
    ensures Where(rows + [x], keep) == Where(rows, keep) + (if keep(x) then [x] else [])
  {
    if |rows| == 0 {
      assert rows + [x] == [x];
    } else {
      assert (rows + [x])[1..] == rows[1..] + [x];
      WhereAppend(rows[1..], x, keep);
    }
  }
}

=== FILE: text.dfy ===
/**
 * Character-string helpers: prefixes and slicing, the lexicographic order a
 * database uses for `ORDER BY` on a text column, and decimal rendering of
 * integers as Python's `str(int)` produces it.
 */
module Text {

  /** `s.startswith(p)`, the `startswith` lookup. */
  predicate IsPrefix(p: string, s: string) {
    |p| <= |s| && s[..|p|] == p
  }

  /** Python's `s[:n]`: at most the first `n` characters. */
  function Take(s: string, n: nat): (r: string)
    ensures |r| == if |s| < n then |s| else n
    ensures IsPrefix(r, s)
  {
    if |s| < n then s else s[..n]
  }

  /** Lexicographic order on character codes: `a` sorts no later than `b`. */
  predicate LexLeq(a: string, b: string)
    decreases |a|
  {
    |a| == 0 || (|b| > 0 && (a[0] < b[0] || (a[0] == b[0] && LexLeq(a[1..], b[1..]))))
  }

  lemma {:induction false} LexTotal(a: string, b: string)
    ensures LexLeq(a, b) || LexLeq(b, a)
    decreases |a|
  {
    if |a| > 0 && |b| > 0 && a[0] == b[0] {
      LexTotal(a[1..], b[1..]);
    }
  }

  lemma {:induction false} LexTransitive(a: string, b: string, c: string)
    requires LexLeq(a, b) && LexLeq(b, c)
    ensures LexLeq(a, c)
    decreases |a|
  {
    if |a| > 0 && a[0] == b[0] && b[0] == c[0] {
      LexTransitive(a[1..], b[1..], c[1..]);
    }
  }

  lemma {:induction false} LexAntisymmetric(a: string, b: string)
    requires LexLeq(a, b) && LexLeq(b, a)
    ensures a == b
    decreases |a|
  {
    if |a| > 0 {
      LexAntisymmetric(a[1..], b[1..]);
      assert a == [a[0]] + a[1..];
      assert b == [b[0]] + b[1..];
    }
  }

  // ---- whitespace

  /** Python's `str.isspace` for one character: the characters `str.strip()` removes. */
  predicate IsSpace(c: char) {
    || c == ' ' || ('\t' <= c <= '\r') || ('\U{1C}' <= c <= '\U{1F}')
    || c == '\U{85}' || c == '\U{A0}' || c == '\U{1680}' || ('\U{2000}' <= c <= '\U{200A}')
    || c == '\U{2028}' || c == '\U{2029}' || c == '\U{202F}' || c == '\U{205F}' || c == '\U{3000}'
  }

  predicate AllSpace(s: string) {
    forall i :: 0 <= i < |s| ==> IsSpace(s[i])
  }

  /** The index of the first character at or after `k` that is not whitespace, or `|s|`. */
  function FirstSolid(s: string, k: nat): (n: nat)
    requires k <= |s|
    ensures k <= n <= |s|
    ensures forall i :: k <= i < n ==> IsSpace(s[i])
    ensures n < |s| ==> !IsSpace(s[n])
    decreases |s| - k
  {
    if k < |s| && IsSpace(s[k]) then FirstSolid(s, k + 1) else k
  }

  /** `s.lstrip()`: the suffix left after the leading whitespace. */
  function StripLeft(s: string): (r: string)
    ensures |r| <= |s| && r == s[|s| - |r|..]
    ensures AllSpace(s[..|s| - |r|])
    ensures |r| > 0 ==> !IsSpace(r[0])
  {
    var n := FirstSolid(s, 0);
    assert forall i :: 0 <= i < n ==> s[..n][i] == s[i];
    s[n..]
  }

  /** `s.rstrip()`: the prefix left before the trailing whitespace. */
  function StripRight(s: string): (r: string)
    ensures |r| <= |s| && r == s[..|r|]
    ensures AllSpace(s[|r|..])
    ensures |r| > 0 ==> !IsSpace(r[|r| - 1])
  {
    if |s| > 0 && IsSpace(s[|s| - 1]) then
      var r := StripRight(s[..|s| - 1]);
      assert s[|r|..] == s[..|s| - 1][|r|..] + [s[|s| - 1]];
      r
    else s
  }

  /**
   * `s.strip()`: `s` without its leading and trailing whitespace. The result
   * is empty exactly when `s` is blank, and otherwise begins and ends with a
   * character that is not whitespace.
   */
  function Strip(s: string): (r: string)
    ensures |r| <= |s|
    ensures exists i :: 0 <= i <= |s| - |r| && r == s[i..][..|r|] && AllSpace(s[..i]) && AllSpace(s[i..][|r|..])
    ensures |r| == 0 <==> AllSpace(s)
    ensures |r| > 0 ==> !IsSpace(r[0]) && !IsSpace(r[|r| - 1])
  {
    StripEmptyOnlyIfBlank(s);
    StripEmptyIfBlank(s);
    StripStartsSolid(s);
    var left := StripLeft(s);
    var r := StripRight(left);
    var i := |s| - |left|;
    assert s[i..] == left;
    assert r == s[i..][..|r|] && AllSpace(s[..i]) && AllSpace(s[i..][|r|..]);
    r
  }

  /**
   * Text a form or serializer `CharField` accepts: Django's
   * `ProhibitNullCharactersValidator` refuses the NUL character.
   */
  predicate NulFree(s: string) {
    '\0' !in s
  }

  lemma StripEmptyOnlyIfBlank(s: string)
    ensures |StripRight(StripLeft(s))| == 0 ==> AllSpace(s)
  {
    var left := StripLeft(s);
    var k := |s| - |left|;
    if |StripRight(left)| == 0 {
      assert left[0..] == left;
      assert AllSpace(left);
      assert s[k..] == left;
      BlankParts(s, k);
    }
  }

  lemma StripEmptyIfBlank(s: string)
    ensures AllSpace(s) ==> |StripRight(StripLeft(s))| == 0
  {
    var left := StripLeft(s);
    if |left| > 0 {
      assert left[0] == s[|s| - |left|];
    }
  }

  lemma StripStartsSolid(s: string)
    ensures |StripRight(StripLeft(s))| > 0 ==> !IsSpace(StripRight(StripLeft(s))[0])
  {
    var left := StripLeft(s);
    var r := StripRight(left);
    if |r| > 0 {
      assert r[0] == left[0];
    }
  }

  /** A string whose first `k` characters and the rest are both blank is blank. */
  lemma BlankParts(s: string, k: nat)
    requires k <= |s| && AllSpace(s[..k]) && AllSpace(s[k..])
    ensures AllSpace(s)
  {
    forall i | 0 <= i < |s|
      ensures IsSpace(s[i])
    {
      if i < k {
        assert s[i] == s[..k][i];
      } else {
        assert s[i] == s[k..][i - k];
      }
    }
  }

  lemma StripIdempotent(s: string)
    ensures Strip(Strip(s)) == Strip(s)
  {
    var r := Strip(s);
    if |r| > 0 {
      assert StripLeft(r) == r;
      assert StripRight(r) == r;
    }
  }

  // ---- decimal numbers

  function DigitChar(d: nat): (c: char)
    requires d < 10
    ensures '0' <= c <= '9'
  {
    "0123456789"[d]
  }

  function DigitValue(c: char): nat {
    if '0' <= c <= '9' then (c as int - '0' as int) else 0
  }

  /** Decimal notation: at least one digit, only digits, and no leading zero. */
  predicate IsDecimal(s: string) {
    && 1 <= |s|
    && (forall i :: 0 <= i < |s| ==> '0' <= s[i] <= '9')
    && (|s| > 1 ==> s[0] != '0')
  }

  /** `str(n)` for a non-negative integer. */
  function Decimal(n: nat): (r: string)
    ensures IsDecimal(r)
  {
    if n < 10 then [DigitChar(n)] else Decimal(n / 10) + [DigitChar(n % 10)]
  }

  /** The value of a string of decimal digits, read left to right. */
  function DecimalValue(s: string): nat {
    if |s| == 0 then 0 else 10 * DecimalValue(s[..|s| - 1]) + DigitValue(s[|s| - 1])
  }

  lemma {:induction false} DecimalRoundTrip(n: nat)
    ensures DecimalValue(Decimal(n)) == n
  {
    var r := Decimal(n);
    if n < 10 {
      assert r[..|r| - 1] == [];
    } else {
      DecimalRoundTrip(n / 10);
      assert r[..|r| - 1] == Decimal(n / 10);
    }
  }
}

=== FILE: user_models.dfy ===
/**
 * The `users` application's models: the self-follow guard of `Follow.save`,
 * the unique e-mail, the `ordering = ('email',)` listing, string forms, and
 * what deleting a user cascades to.
 */
module UserModels {
  import opened Wrappers
  import opened Tables
  import opened Text
  import opened Schema

  /** `User.__str__` */
  function UserLabel(u: User): string {
    u.username
  }

  /** `Follow.__str__` */
  function FollowLabel(follower: User, author: User): string {
    "Пользователь " + UserLabel(follower) + " подписался на " + UserLabel(author)
  }

  // ---- Follow.save

  /**
   * `Follow.save`: a user following themself raises a validation error and
   * nothing is written; otherwise the row is inserted (the foreign keys must
   * name existing users). No check for an existing (user, author) row.
   */
  function SaveFollow(s: Store, f: Follow): (out: Result<Store, Error>)
    ensures f.user == f.author ==> out == Failure(ValidationError)
    ensures f.user != f.author && !(UserExists(s, f.user) && UserExists(s, f.author)) ==>
      out == Failure(IntegrityError)
    ensures f.user != f.author && UserExists(s, f.user) && UserExists(s, f.author) ==>
      && out.Success?
      && out.value == s.(follows := out.value.follows)
      && out.value.follows.rows == s.follows.rows + [Row(s.follows.next, f)]
      && IsFollowing(out.value, f.user, f.author)
  {
    if f.user == f.author then Failure(ValidationError)
    else if !(UserExists(s, f.user) && UserExists(s, f.author)) then Failure(IntegrityError)
    else
      var s' := s.(follows := Insert(s.follows, f));
      assert Row(s.follows.next, f) in s'.follows.rows;
      Success(s')
  }

  lemma SaveFollowPreservesValid(s: Store, f: Follow)
    requires Valid(s)
    requires SaveFollow(s, f).Success?
    ensures Valid(SaveFollow(s, f).value)
  {
    var s' := SaveFollow(s, f).value;
    forall x | x in s'.follows.rows
      ensures x.val.user in Ids(s.users.rows) && x.val.author in Ids(s.users.rows)
      ensures x.val.user != x.val.author
    {
      if x !in s.follows.rows {
        assert x == Row(s.follows.next, f);
        var u :| u in s.users.rows && u.id == f.user;
        var a :| a in s.users.rows && a.id == f.author;
      }
    }
  }

  /**
   * Nothing stops a second identical subscription: saving the same follow
   * twice into a store without it leaves two (user, author) rows.
   */
  lemma SaveFollowTwiceKeepsDuplicate(s: Store, f: Follow)
    requires f.user != f.author && UserExists(s, f.user) && UserExists(s, f.author)
    requires !IsFollowing(s, f.user, f.author)
    ensures SaveFollow(s, f).Success?
    ensures SaveFollow(SaveFollow(s, f).value, f).Success?
    ensures Count(SaveFollow(SaveFollow(s, f).value, f).value.follows.rows,
                  (x: Row<Follow>) => x.val == f) == 2
  {
    var matches := (x: Row<Follow>) => x.val == f;
    var rows := s.follows.rows;
    var first := Row(s.follows.next, f);
    var second := Row(s.follows.next + 1, f);
    var s1 := SaveFollow(s, f).value;
    assert s1.follows.rows == rows + [first];
    assert SaveFollow(s1, f).value.follows.rows == rows + [first] + [second];
    WhereNone(rows, matches);
    WhereAppend(rows, first, matches);
    WhereAppend(rows + [first], second, matches);
  }

  // ---- the unique e-mail

  /**
   * Inserting a user: the unique indexes on `email` and on the inherited
   * `username` refuse a second user with the same address or the same name.
   */
  function AddUser(s: Store, u: User): (out: Result<Store, Error>)
    ensures out.Failure? <==>
      exists r :: r in s.users.rows && (r.val.email == u.email || r.val.username == u.username)
    ensures out.Failure? ==> out.error == IntegrityError
    ensures out.Success? ==>
      && out.value == s.(users := out.value.users)
      && out.value.users.rows == s.users.rows + [Row(s.users.next, u)]
  {
    if Any(s.users.rows, (r: Row<User>) => r.val.email == u.email || r.val.username == u.username) then
      Failure(IntegrityError)
    else Success(s.(users := Insert(s.users, u)))
  }

  lemma AddUserPreservesValid(s: Store, u: User)
    requires Valid(s)
    requires AddUser(s, u).Success?
    ensures Valid(AddUser(s, u).value)
  {
    var s' := AddUser(s, u).value;
    assert Ids(s.users.rows) <= Ids(s'.users.rows);
    var added := Row(s.users.next, u);
    forall a, b | a in s'.users.rows && b in s'.users.rows
      && (a.val.email == b.val.email || a.val.username == b.val.username)
      ensures a == b
    {
      assert a in s.users.rows || a == added;
      assert b in s.users.rows || b == added;
    }
  }

  // ---- ordering = ('email',)

  predicate ByEmail(rows: seq<Row<User>>) {
    forall i, j :: 0 <= i < j < |rows| ==> LexLeq(rows[i].val.email, rows[j].val.email)
  }

  /** A row whose e-mail sorts no later than every row of a sorted `rest` may lead it. */
  lemma PrependByEmail(h: Row<User>, rest: seq<Row<User>>)
    requires ByEmail(rest)
    requires forall x :: x in rest ==> LexLeq(h.val.email, x.val.email)
    ensures ByEmail([h] + rest)
  {
    forall j | 0 < j < |[h] + rest|
      ensures LexLeq(h.val.email, ([h] + rest)[j].val.email)
    {
      assert ([h] + rest)[j] == rest[j - 1];
    }
  }

  lemma LeadsSorted(u: Row<User>, sorted: seq<Row<User>>)
    requires ByEmail(sorted) && |sorted| > 0
    requires LexLeq(u.val.email, sorted[0].val.email)
    ensures forall x :: x in sorted ==> LexLeq(u.val.email, x.val.email)
  {
    forall x | x in sorted
      ensures LexLeq(u.val.email, x.val.email)
    {
      var k :| 0 <= k < |sorted| && sorted[k] == x;
      if k > 0 {
        LexTransitive(u.val.email, sorted[0].val.email, x.val.email);
      }
    }
  }

  lemma HeadLeadsInsertion(u: Row<User>, sorted: seq<Row<User>>, r: seq<Row<User>>)
    requires ByEmail(sorted) && |sorted| > 0
    requires !LexLeq(u.val.email, sorted[0].val.email)
    requires multiset(r) == multiset(sorted[1..]) + multiset{u}
    ensures forall x :: x in r ==> LexLeq(sorted[0].val.email, x.val.email)
  {
    LexTotal(u.val.email, sorted[0].val.email);
    forall x | x in r
      ensures LexLeq(sorted[0].val.email, x.val.email)
    {
      assert x in multiset(r);
      if x != u {
        assert x in multiset(sorted[1..]);
        var k :| 0 <= k < |sorted[1..]| && sorted[1..][k] == x;
        assert sorted[k + 1] == x;
      }
    }
  }

  function InsertByEmail(u: Row<User>, sorted: seq<Row<User>>): (r: seq<Row<User>>)
    requires ByEmail(sorted)
    ensures ByEmail(r)
    ensures multiset(r) == multiset(sorted) + multiset{u}
  {
    if |sorted| == 0 then [u]
    else if LexLeq(u.val.email, sorted[0].val.email) then
      LeadsSorted(u, sorted);
      PrependByEmail(u, sorted);
      [u] + sorted
    else
      var rest := InsertByEmail(u, sorted[1..]);
      HeadLeadsInsertion(u, sorted, rest);
      PrependByEmail(sorted[0], rest);
      assert sorted == [sorted[0]] + sorted[1..];
      [sorted[0]] + rest
  }

  /** `User.objects.all()` under `ordering = ('email',)`: every user once, by ascending e-mail. */
  function UsersByEmail(rows: seq<Row<User>>): (listed: seq<Row<User>>)
    ensures ByEmail(listed)
    ensures multiset(listed) == multiset(rows)
  {
    if |rows| == 0 then []
    else
      assert rows == [rows[0]] + rows[1..];
      InsertByEmail(rows[0], UsersByEmail(rows[1..]))
  }

  /**
   * With unique e-mails the listing order is strict: of two different
   * users, exactly one sorts first, so the `email` ordering never ties.
   */
  lemma EmailOrderStrict(rows: seq<Row<User>>, a: Row<User>, b: Row<User>)
    requires UniqueEmails(rows) && a in rows && b in rows && a != b
    ensures LexLeq(a.val.email, b.val.email) != LexLeq(b.val.email, a.val.email)
  {
    LexTotal(a.val.email, b.val.email);
    if LexLeq(a.val.email, b.val.email) && LexLeq(b.val.email, a.val.email) {
      LexAntisymmetric(a.val.email, b.val.email);
    }
  }

  // ---- cascades

  /** Is `recipe` the id of a recipe written by `user`? */
  predicate AuthoredBy(s: Store, recipe: nat, user: nat) {
    Any(s.recipes.rows, (r: Row<Recipe>) => r.id == recipe && r.val.author == user)
  }

  /**
   * Deleting a user: `on_delete=CASCADE` removes their follows in either
   * direction, their favourites and cart rows, their recipes, and, through
   * those recipes, the recipe-ingredient, favourite and cart rows of the
   * recipes; tags and ingredients are untouched.
   */
  function DeleteUser(s: Store, id: nat): (s': Store)
    ensures Without(s'.users, s.users, (u: Row<User>) => u.id == id)
    ensures Without(s'.follows, s.follows, (f: Row<Follow>) => f.val.user == id || f.val.author == id)
    ensures Without(s'.recipes, s.recipes, (r: Row<Recipe>) => r.val.author == id)
    ensures Without(s'.recipeIngredients, s.recipeIngredients,
                    (l: Row<RecipeIngredient>) => AuthoredBy(s, l.val.recipe, id))
    ensures Without(s'.favorites, s.favorites,
                    (f: Row<Favorite>) => f.val.user == id || AuthoredBy(s, f.val.recipe, id))
    ensures Without(s'.carts, s.carts,
                    (c: Row<CartEntry>) => c.val.user == id || AuthoredBy(s, c.val.recipe, id))
    ensures s'.tags == s.tags && s'.ingredients == s.ingredients
  {
    s.(users := Delete(s.users, (u: Row<User>) => u.id == id),
       follows := Delete(s.follows, (f: Row<Follow>) => f.val.user == id || f.val.author == id),
       recipes := Delete(s.recipes, (r: Row<Recipe>) => r.val.author == id),
       recipeIngredients := Delete(s.recipeIngredients,
                                   (l: Row<RecipeIngredient>) => AuthoredBy(s, l.val.recipe, id)),
       favorites := Delete(s.favorites,
                           (f: Row<Favorite>) => f.val.user == id || AuthoredBy(s, f.val.recipe, id)),
       carts := Delete(s.carts,
                       (c: Row<CartEntry>) => c.val.user == id || AuthoredBy(s, c.val.recipe, id)))
  }

  lemma DeleteUserPreservesValid(s: Store, id: nat)
    requires Valid(s)
    ensures Valid(DeleteUser(s, id))
    ensures !UserExists(DeleteUser(s, id), id)
    ensures forall f :: f in DeleteUser(s, id).follows.rows ==> f.val.user != id && f.val.author != id
  {
    DeleteUserKeepsOthers(s, id);
    DeleteUserResolvesPeople(s, id);
    DeleteUserResolvesRecipes(s, id);
  }

  lemma DeleteUserResolvesPeople(s: Store, id: nat)
    requires Valid(s)
    requires forall x :: x in Ids(s.users.rows) && x != id ==> x in Ids(DeleteUser(s, id).users.rows)
    ensures FollowsResolve(DeleteUser(s, id)) && RecipesResolve(DeleteUser(s, id))
  {
    var s' := DeleteUser(s, id);
    forall f | f in s'.follows.rows
      ensures f.val.user in Ids(s'.users.rows) && f.val.author in Ids(s'.users.rows)
    {
      assert f in s.follows.rows;
    }
    forall r | r in s'.recipes.rows
      ensures r.val.author in Ids(s'.users.rows) && r.val.tags <= Ids(s'.tags.rows)
    {
      assert r in s.recipes.rows;
    }
  }

  lemma DeleteUserResolvesRecipes(s: Store, id: nat)
    requires Valid(s)
    requires forall x :: x in Ids(s.users.rows) && x != id ==> x in Ids(DeleteUser(s, id).users.rows)
    requires forall x :: x in Ids(s.recipes.rows) && !AuthoredBy(s, x, id) ==>
      x in Ids(DeleteUser(s, id).recipes.rows)
    ensures LinesResolve(DeleteUser(s, id))
    ensures FavoritesResolve(DeleteUser(s, id))
    ensures CartsResolve(DeleteUser(s, id))
  {
    var s' := DeleteUser(s, id);
    forall l | l in s'.recipeIngredients.rows
      ensures l.val.recipe in Ids(s'.recipes.rows) && l.val.ingredient in Ids(s'.ingredients.rows)
    {
      assert l in s.recipeIngredients.rows;
    }
    forall f | f in s'.favorites.rows
      ensures f.val.user in Ids(s'.users.rows) && f.val.recipe in Ids(s'.recipes.rows)
    {
      assert f in s.favorites.rows;
    }
    forall c | c in s'.carts.rows
      ensures c.val.user in Ids(s'.users.rows) && c.val.recipe in Ids(s'.recipes.rows)
    {
      assert c in s.carts.rows;
    }
  }

  /** The users and recipes a user's deletion spares keep their ids. */
  lemma DeleteUserKeepsOthers(s: Store, id: nat)
    requires Valid(s)
    ensures forall x :: x in Ids(s.users.rows) && x != id ==> x in Ids(DeleteUser(s, id).users.rows)
    ensures forall x :: x in Ids(s.recipes.rows) && !AuthoredBy(s, x, id) ==>
      x in Ids(DeleteUser(s, id).recipes.rows)
  {
    var s' := DeleteUser(s, id);
    forall x | x in Ids(s.users.rows) && x != id
      ensures x in Ids(s'.users.rows)
    {
      var u :| u in s.users.rows && u.id == x;
      assert u in s'.users.rows;
    }
    forall x | x in Ids(s.recipes.rows) && !AuthoredBy(s, x, id)
      ensures x in Ids(s'.recipes.rows)
    {
      var r :| r in s.recipes.rows && r.id == x;
      assert r.val.author != id;
      assert r in s'.recipes.rows;
    }
  }
}

=== FILE: views.dfy ===
/**
 * The state-changing views of the API: adding a recipe to and removing it
 * from the caller's shopping cart, and unsubscribing from an author. Each is
 * a transition of the store that also yields the view's reply. The caller is
 * the signed-in user the `IsAuthenticated` permission admitted.
 */
module Views {
  import opened Wrappers
  import opened Tables
  import opened Schema
  import UserModels

  /**
   * `ShoppingCartViewSet.post` as written. An unknown recipe is a 404. For a
   * known recipe the view answers 400 whatever the cart holds: the data it
   * hands `ShoppingCartSerializer` holds only `user` and `recipe`, while the
   * serializer requires its `id`, `name`, `image` and `cooking_time` fields,
   * so `is_valid()` fails and nothing is saved.
   */
  function AddToCartAsWritten(s: Store, user: nat, recipe: nat): (out: (Reply, Store))
    ensures out.1 == s
    ensures out.0 == NotFound <==> !RecipeExists(s, recipe)
    ensures out.0 == BadRequest <==> RecipeExists(s, recipe)
    ensures out.0.Code() != 201
  {
    if !RecipeExists(s, recipe) then (NotFound, s) else (BadRequest, s)
  }

  /**
   * `ShoppingCartViewSet.post` with a serializer over the `user` and `recipe`
   * keys the view supplies. An unknown recipe is a 404. A (user, recipe) row
   * already present, or a user key naming no user, is a 400. Otherwise
   * exactly one row is inserted and the reply is 201.
   */
  function AddToCart(s: Store, user: nat, recipe: nat): (out: (Reply, Store))
    ensures !RecipeExists(s, recipe) ==> out == (NotFound, s)
    ensures RecipeExists(s, recipe) && InCart(s, user, recipe) ==> out == (BadRequest, s)
    ensures RecipeExists(s, recipe) && !InCart(s, user, recipe) && !UserExists(s, user) ==> out == (BadRequest, s)
    ensures RecipeExists(s, recipe) && !InCart(s, user, recipe) && UserExists(s, user) ==>
      && out.0 == Created
      && out.1 == s.(carts := out.1.carts)
      && out.1.carts.rows == s.carts.rows + [Row(s.carts.next, CartEntry(user, recipe))]
      && Count(out.1.carts.rows, CartEntryOf(user, recipe)) == 1
    ensures out.0.Code() == 201 <==> RecipeExists(s, recipe) && !InCart(s, user, recipe) && UserExists(s, user)
  {
    if !RecipeExists(s, recipe) then (NotFound, s)
    else if InCart(s, user, recipe) || !UserExists(s, user) then (BadRequest, s)
    else
      var carts := Insert(s.carts, CartEntry(user, recipe));
      WhereNone(s.carts.rows, CartEntryOf(user, recipe));
      WhereAppend(s.carts.rows, Row(s.carts.next, CartEntry(user, recipe)), CartEntryOf(user, recipe));
      (Created, s.(carts := carts))
  }

  /** Where the corrected view adds a recipe to the cart, the view as written refuses it and writes nothing. */
  lemma CartAddRefusedAsWritten(s: Store, user: nat, recipe: nat)
    requires RecipeExists(s, recipe) && UserExists(s, user) && !InCart(s, user, recipe)
    ensures AddToCart(s, user, recipe).0 == Created
    ensures AddToCartAsWritten(s, user, recipe) == (BadRequest, s)
  {
  }

  /**
   * `ShoppingCartViewSet.delete`. An unknown recipe is a 404, an absent
   * relation a 400. Otherwise every (user, recipe) cart row is deleted, no
   * other row is touched, and the reply is 204.
   */
  function RemoveFromCart(s: Store, user: nat, recipe: nat): (out: (Reply, Store))
    ensures !RecipeExists(s, recipe) ==> out == (NotFound, s)
    ensures RecipeExists(s, recipe) && !InCart(s, user, recipe) ==> out == (BadRequest, s)
    ensures RecipeExists(s, recipe) && InCart(s, user, recipe) ==>
      && out.0 == NoContent
      && out.1 == s.(carts := out.1.carts)
      && Without(out.1.carts, s.carts, CartEntryOf(user, recipe))
      && !InCart(out.1, user, recipe)
      && |out.1.carts.rows| == |s.carts.rows| - Count(s.carts.rows, CartEntryOf(user, recipe))
    ensures out.0.Code() == 204 <==> RecipeExists(s, recipe) && InCart(s, user, recipe)
  {
    if !RecipeExists(s, recipe) then (NotFound, s)
    else if !InCart(s, user, recipe) then (BadRequest, s)
    else
      var p := CartEntryOf(user, recipe);
      var carts := Delete(s.carts, p);
      WhereSplits(s.carts.rows, p);
      assert Where(s.carts.rows, r => !p(r)) == carts.rows;
      (NoContent, s.(carts := carts))
  }

  /**
   * `FollowViewSet.delete`. An unknown author, or no (user, author) row, is a
   * 404. `get_object_or_404` only catches "does not exist", so two or more
   * such rows raise `MultipleObjectsReturned` and nothing is deleted. With
   * exactly one row, that row is deleted and nothing else; the view then
   * returns no response object.
   */
  function Unfollow(s: Store, user: nat, author: nat): (out: (Reply, Store))
    ensures !UserExists(s, author) ==> out == (NotFound, s)
    ensures UserExists(s, author) && !IsFollowing(s, user, author) ==> out == (NotFound, s)
    ensures UserExists(s, author) && Count(s.follows.rows, FollowOf(user, author)) >= 2 ==>
      out == (Raised(MultipleObjectsReturned), s)
    ensures UserExists(s, author) && Count(s.follows.rows, FollowOf(user, author)) == 1 ==>
      && out.0 == NoResponse
      && out.1 == s.(follows := out.1.follows)
      && Without(out.1.follows, s.follows, FollowOf(user, author))
      && |out.1.follows.rows| == |s.follows.rows| - 1
  {
    var p := FollowOf(user, author);
    CountZero(s.follows.rows, p);
    if !UserExists(s, author) then (NotFound, s)
    else if Count(s.follows.rows, p) == 0 then (NotFound, s)
    else if Count(s.follows.rows, p) > 1 then (Raised(MultipleObjectsReturned), s)
    else
      var follows := Delete(s.follows, p);
      WhereSplits(s.follows.rows, p);
      assert Where(s.follows.rows, r => !p(r)) == follows.rows;
      (NoResponse, s.(follows := follows))
  }

  /**
   * A successful unsubscribe returns no response, which the framework turns
   * into a server error, and so does a duplicated follow row: the client sees
   * 500 exactly when the author exists and the viewer follows them.
   */
  lemma UnfollowAnswers500(s: Store, user: nat, author: nat)
    ensures Unfollow(s, user, author).0.Code() == 500 <==> UserExists(s, author) && IsFollowing(s, user, author)
  {
    CountZero(s.follows.rows, FollowOf(user, author));
  }

  // ---- partners

  /** Adding then removing a recipe not yet in the cart gives back the original cart rows. */
  lemma CartRoundTrip(s: Store, user: nat, recipe: nat)
    requires RecipeExists(s, recipe) && UserExists(s, user) && !InCart(s, user, recipe)
    ensures AddToCart(s, user, recipe).0 == Created
    ensures RemoveFromCart(AddToCart(s, user, recipe).1, user, recipe).0 == NoContent
    ensures RemoveFromCart(AddToCart(s, user, recipe).1, user, recipe).1
         == s.(carts := s.carts.(next := s.carts.next + 1))
  {
    var p := CartEntryOf(user, recipe);
    var added := Row(s.carts.next, CartEntry(user, recipe));
    var s1 := AddToCart(s, user, recipe).1;
    assert s1 == s.(carts := Table(s.carts.rows + [added], s.carts.next + 1));
    assert added in s1.carts.rows;
    assert RemoveFromCart(s1, user, recipe).1 == s1.(carts := Delete(s1.carts, p));
    DeleteLastAdded(s.carts, added, p);
  }

  /** Deleting the rows that match, after appending the only matching row, leaves the earlier rows. */
  lemma DeleteLastAdded<T>(t: Table<T>, added: Row<T>, p: Row<T> -> bool)
    requires !Any(t.rows, p) && p(added)
    ensures Delete(Table(t.rows + [added], t.next + 1), p).rows == t.rows
  {
    var q := (r: Row<T>) => !p(r);
    WhereAppend(t.rows, added, q);
    WhereKeepsAll(t.rows, q);
  }

  /** A second add of the same recipe is refused and changes nothing. */
  lemma AddToCartTwiceRefused(s: Store, user: nat, recipe: nat)
    requires AddToCart(s, user, recipe).0 == Created
    ensures AddToCart(AddToCart(s, user, recipe).1, user, recipe)
         == (BadRequest, AddToCart(s, user, recipe).1)
  {
    var s1 := AddToCart(s, user, recipe).1;
    assert Row(s.carts.next, CartEntry(user, recipe)) in s1.carts.rows;
  }

  lemma AddToCartPreservesValid(s: Store, user: nat, recipe: nat)
    requires Valid(s)
    ensures Valid(AddToCart(s, user, recipe).1)
  {
    if AddToCart(s, user, recipe).0 == Created {
      CartRowKeepsValid(s, user, recipe);
    }
  }

  /** A cart row naming an existing user and recipe keeps the store valid. */
  lemma CartRowKeepsValid(s: Store, user: nat, recipe: nat)
    requires Valid(s) && UserExists(s, user) && RecipeExists(s, recipe)
    ensures Valid(s.(carts := Insert(s.carts, CartEntry(user, recipe))))
  {
    var s' := s.(carts := Insert(s.carts, CartEntry(user, recipe)));
    forall c | c in s'.carts.rows
      ensures c.val.user in Ids(s.users.rows) && c.val.recipe in Ids(s.recipes.rows)
    {
      if c !in s.carts.rows {
        var u :| u in s.users.rows && u.id == user;
        var r :| r in s.recipes.rows && r.id == recipe;
      }
    }
    assert CartsResolve(s');
  }

  lemma RemoveFromCartPreservesValid(s: Store, user: nat, recipe: nat)
    requires Valid(s)
    ensures Valid(RemoveFromCart(s, user, recipe).1)
  {
  }

  lemma UnfollowPreservesValid(s: Store, user: nat, author: nat)
    requires Valid(s)
    ensures Valid(Unfollow(s, user, author).1)
  {
    CountZero(s.follows.rows, FollowOf(user, author));
  }

  /** Subscribing and then unsubscribing gives back the original follow rows. */
  lemma FollowRoundTrip(s: Store, f: Follow)
    requires UserModels.SaveFollow(s, f).Success?
    requires !IsFollowing(s, f.user, f.author)
    ensures Unfollow(UserModels.SaveFollow(s, f).value, f.user, f.author).0 == NoResponse
    ensures Unfollow(UserModels.SaveFollow(s, f).value, f.user, f.author).1
         == s.(follows := s.follows.(next := s.follows.next + 1))
  {
    var p := FollowOf(f.user, f.author);
    var added := Row(s.follows.next, f);
    var s1 := UserModels.SaveFollow(s, f).value;
    assert s1 == s.(follows := Table(s.follows.rows + [added], s.follows.next + 1));
    WhereNone(s.follows.rows, p);
    WhereAppend(s.follows.rows, added, p);
    assert Count(s1.follows.rows, p) == 1;
    assert UserExists(s1, f.author);
    assert Unfollow(s1, f.user, f.author).1 == s1.(follows := Delete(s1.follows, p));
    DeleteLastAdded(s.follows, added, p);
  }
}

=== FILE: wrappers.dfy ===
/** Failure-carrying result types shared by every module of the model. */
module Wrappers {

  datatype Option<+T> = None | Some(value: T)

  datatype Result<+R, +E> = Success(value: R) | Failure(error: E) {
    predicate IsFailure() {
      Failure?
    }

    function PropagateFailure<U>(): Result<U, E>
      requires Failure?
    {
      Failure(error)
    }

    function Extract(): R
      requires Success?
    {
      value
    }
  }
}
